=== FILE: README.md ===
# WikiGraphExplorer core, modelled in Dafny

WikiGraphExplorer crawls Wikipedia and answers shortest-path questions over what it
collected. This project models three pieces of it and proves properties of each:

- **The crawler's bookkeeping** (`WikiGraph` in cache_wiki.py). The state is:
  - the records collected so far;
  - the set of processed titles;
  - this round's titles and next round's titles.

  Parsing one article appends one record holding the article's links: first
  occurrences only, in page order, cut at the first anchor with an href whose id
  marks the end of the article body; an anchor with such an id but no href
  does not stop the scan. Each new link that is not a processed title is
  queued for the next round. Also modelled:
  - the article URL;
  - the command-line limits;
  - a sequential rendering of the round-by-round driver.
- **The query graph** (`GraphFromWiki` in shortest_path.py):
  - the vertex and edge sets built from the records, directed or not;
  - the neighbour lookup;
  - the level-counting breadth-first search `bfs`;
  - the path-carrying breadth-first search `bfs_with_path`;
  - the `shortest_path` wrapper that renders their answer, including its quirk: a hop count of 0 comes back as "Path not found".

  Distances are stated against an independent definition. `QueryGraph.Layer(g, s, k)` is the set of vertices at the end of some walk of exactly `k` edges from `s`.
- **The renderer's size table** (`RenderWikiGraph.__init__` in render_graph.py):
  - a fold from the records to a map from title to (size, references);
  - a failing dictionary lookup is modelled as `None`.

  `SizeTable.Describes` states the table independently: keys, sizes as counts of occurrences, and references per title.

The fetched page is an input, either a missing article or the sequence of its
anchors `(id, href, title)`. The crawler driver takes the fetch as a function
parameter.

Files, one module each:

- `wiki_data.dfy`: titles, records, `Option`/`Result`, sequence helpers.
- `text.dfy`: substring test, space/underscore replacement, decimal rendering.
- `query_graph.dfy`: the graph, its construction, the walk and distance vocabulary.
- `path_search.dfy`: the two searches and `shortest_path`.
- `link_filter.dfy`: which anchors of a page become references.
- `hops.dfy`: how many rounds of the crawl reach a title through the records.
- `crawler.dfy`: the crawler state, `parse`, the limits and the driver.
- `size_table.dfy`: the renderer's size table.
- `pipeline.dfy`: the crawler's records always build a size table.

## Model

| member | source | states |
|---|---|---|
| QueryGraph.Build | shortest_path.py:11-20 | the vertices are exactly the record titles and references; the edges are exactly the (title, reference) pairs, plus their reverses in non-directed mode |
| QueryGraph.AddReferences | shortest_path.py:16-20 | one record's references add each reference as a vertex and the edge to it (and back, non-directed) and nothing else |
| QueryGraph.BuildShape | shortest_path.py:11-20 | both endpoints of every edge are vertices; every (title, reference) is an edge; non-directed edges are symmetric; directed edges are exactly the record links |
| QueryGraph.Neighbors | shortest_path.py:22-23 | `w` is listed exactly when `(v, w)` is an edge, with no repetitions; the order is left open |
| QueryGraph.WalkEndsInLayer | shortest_path.py:25-42 | a walk of `n` edges ends in layer `n`, so a level count bounds every walk from below |
| QueryGraph.LayerHasWalk | shortest_path.py:25-42 | every vertex of layer `k` is the end of a walk of exactly `k` edges from the start |
| QueryGraph.DistanceIsShortest | shortest_path.py:25-42 | the distance is attained by a walk and no walk from start to target is shorter |
| QueryGraph.DistanceUnique | shortest_path.py:25-56 | two distances between the same vertices are equal |
| QueryGraph.ShortestPathIsSimple | shortest_path.py:44-56 | a shortest walk repeats no vertex |
| QueryGraph.ClosedSetHoldsLayers | shortest_path.py:31-42 | a vertex set containing the start and closed under edges contains every layer |
| PathSearch.LevelSearch | shortest_path.py:25-42 | `bfs` answers the distance when the target is reachable, `None` exactly when it is not, and 0 when start is target; it terminates although the queues may repeat vertices |
| PathSearch.LevelStep | shortest_path.py:32-41 | one loop turn keeps the level invariant and either marks one more vertex or leaves one queued vertex fewer |
| PathSearch.LevelAdvance | shortest_path.py:32-41 | marking the dequeued vertex and queueing its neighbours when it was unmarked keeps the loop state, swapping in the next level when the current queue runs dry; the work measure drops |
| PathSearch.LevelTake | shortest_path.py:32-38 | dequeuing a vertex and expanding it only when unmarked keeps the level invariant |
| PathSearch.LevelSwap | shortest_path.py:39-41 | when the current queue runs dry, the next queue holds every unmarked vertex one level further, so swapping and counting one more level keeps the invariant |
| PathSearch.LevelFound | shortest_path.py:33-34 | dequeuing the target means the current level is its distance |
| PathSearch.LevelExhausted | shortest_path.py:31-42 | with both queues empty the target is unreachable |
| PathSearch.ClosedSetHoldsAllLayers | shortest_path.py:31-56 | the visited set left by an exhausted search holds every reachable vertex |
| PathSearch.ExtendShape | shortest_path.py:53-55 | the expansion queues each unmarked neighbour with the walk extended by it, and nothing else |
| PathSearch.EnqueueUnmarked | shortest_path.py:53-55 | the expansion loop appends exactly those entries, in neighbour order |
| PathSearch.PathTake | shortest_path.py:49-55 | one turn of `bfs_with_path` keeps its invariant and tells the new front walk length |
| PathSearch.PathFound | shortest_path.py:49-51 | the walk carried with the dequeued target is a shortest walk without repeated vertices |
| PathSearch.TakeShrinksFront | shortest_path.py:48-55 | a turn removes one walk of the current front length and adds only longer walks, which bounds the work although vertices are expanded repeatedly |
| PathSearch.FrontBound | shortest_path.py:48-55 | the front walk length is below the number of vertices the search can touch |
| PathSearch.PathSearch | shortest_path.py:44-56 | `bfs_with_path` returns a walk from start to target with an edge between consecutive entries, no repeated vertex and minimum length; `None` exactly when the target is unreachable; `[start]` when start is target |
| PathSearch.SearchesAgree | shortest_path.py:25-56 | the two searches both succeed or both fail, and the path has one more entry than the hop count |
| PathSearch.JoinIsSuffixed | shortest_path.py:67-69 | joining titles with a separator is every title but the last followed by the separator, then the last |
| PathSearch.RenderPath | shortest_path.py:63-69 | the rendering loop produces the titles joined by the separator, a line break and `len(path) - 1` |
| PathSearch.RenderReadsBack | shortest_path.py:69 | the text after the line break following the joined titles is all digits and reads back as the hop count |
| PathSearch.RenderIsNotMessage | shortest_path.py:65-72 | a rendered path is never the not-found message |
| PathSearch.ShortestPath | shortest_path.py:58-75 | no answer exactly when an endpoint is not a vertex; without `view_path`, a positive hop count equal to the distance when start and target differ and the target is reachable, else "Path not found"; with it, "Path not found" exactly when unreachable, else the rendering of a shortest simple path with " -- " or " -> " |
| PathSearch.ZeroHopIsNotFound | shortest_path.py:73-75 | from an article to itself the hop count answer is "Path not found" although the distance is 0, while the path view renders the one-title path |
| PathSearch.ShortestPathIntended | shortest_path.py:58-75 | with the count tested against `None`: without `view_path`, the distance exactly when the target is reachable, the start included; with it, the not-found message exactly when the target is unreachable and otherwise the rendering of a shortest path without repeated titles |
| Text.ContainsIffOccurs | cache_wiki.py:61-62 | the substring test holds exactly when the string occurs at some position |
| Text.FirstCharAbsent | cache_wiki.py:61-62 | a string whose first character is absent does not occur |
| Text.Replaced | cache_wiki.py:40 | a single-character replacement keeps the length and leaves no replaced character behind |
| Text.ReplacedPointwise | cache_wiki.py:40 | the replacement turns each occurrence of the character into the new one and keeps every other character |
| Text.ReplaceBack | cache_wiki.py:40 | replacing back recovers the string when the new character did not occur in it |
| Text.Decimal | shortest_path.py:69 | `str(n)` is a non-empty digit string without a leading zero, "0" for 0 |
| Text.DecimalRoundTrip | shortest_path.py:69 | reading back `str(n)` gives `n` |
| LinkFilter.StopIndex | cache_wiki.py:54-59 | the scan runs up to the first href-bearing anchor whose id is one of the section ids |
| LinkFilter.LinkTitlesMembers | cache_wiki.py:56-63 | a title is among the link titles exactly when a link anchor carries it |
| LinkFilter.QualifiedMembers | cache_wiki.py:54-63 | a title is considered exactly when a link anchor before every stopping anchor carries it |
| LinkFilter.DedupAfter | cache_wiki.py:64-65 | deduplication keeps the references already present as a prefix |
| LinkFilter.DedupAfterMembers | cache_wiki.py:64-65 | deduplication keeps exactly the elements present before or added, and adds no repetition |
| LinkFilter.DedupFirstOccurrence | cache_wiki.py:64-65 | the kept references are in order of first occurrence on the page |
| LinkFilter.UnknownMembers | cache_wiki.py:66-67 | the queued titles are exactly the new references that are not processed titles |
| LinkFilter.ScanLinks | cache_wiki.py:54-67 | the anchor loop records the first occurrences of the considered titles and queues those of them that are not processed |
| LinkFilter.ScanNext | cache_wiki.py:63-67 | one considered title is recorded when new and queued when it is also not processed; otherwise nothing changes |
| LinkFilter.Extracted | cache_wiki.py:54-65 | the references `parse` records for a page have no repetitions; `ExtractedLinks` states which titles they are |
| LinkFilter.ExtractedLinks | cache_wiki.py:54-65 | the recorded references have no repetitions and are exactly the titles of link anchors before every stopping anchor |
| Crawler.New | cache_wiki.py:23-27 | a new crawler is valid, has nothing processed and the seed title to parse |
| Crawler.ValidSizes | cache_wiki.py:29-30 | under the invariant there are as many records as processed titles, which `len` counts |
| Crawler.Len | cache_wiki.py:29-30 | `len` counts the processed titles, which under the invariant is the number of records |
| Crawler.Unparsed | cache_wiki.py:32-33 | `unparsed` gives this round's titles; `New` and `UnparsedUpdate` state what they are |
| Crawler.UnparsedUpdate | cache_wiki.py:35-36 | the queued titles become this round's, the queue empties, nothing else changes, and validity is kept |
| Crawler.WikiUrl | cache_wiki.py:38-40 | the address is the fixed prefix followed by as many characters as the title has, none of them a space |
| Crawler.WikiUrlShape | cache_wiki.py:38-40 | the address is the fixed prefix followed by the title with spaces made underscores and nothing else changed |
| Crawler.WikiUrlRoundTrip | cache_wiki.py:38-40 | a title without underscores is recovered from its address |
| Crawler.Parse | cache_wiki.py:42-68 | a processed title or a missing article changes nothing and reports False; otherwise True, one more title, one more record, and the queue only extended |
| Crawler.ParseValid | cache_wiki.py:42-68 | a successful parse appends exactly the record of the title with its extracted links, queues exactly the unprocessed ones, never the title itself, and keeps the invariant |
| Crawler.ParseQueuesOne | cache_wiki.py:42-68 | parsing a new title whose page yields one unprocessed link queues that link once more and marks the title processed |
| Crawler.QueuedTwice | cache_wiki.py:64-67 | two pages linking the same unprocessed article both queue it, so the next round lists it twice |
| Crawler.SingleLink | cache_wiki.py:54-65 | a page made of one link anchor yields exactly that anchor's title |
| Crawler.WikiHrefIsLink | cache_wiki.py:54-65 | an anchor whose href is `/wiki/` followed by `s` is a link exactly when `s` holds none of the disqualifying substrings; if its id does not end the scan either, a page of it alone yields its title |
| Crawler.ValidateConfig | cache_wiki.py:114-122 | the limits are accepted exactly when the depth is at least 1 and the maximum at least 8; the depth is checked first, each failure has its message, and success gives at least 2 rounds and a positive article limit |
| Crawler.CrawlStep | cache_wiki.py:77-80 | one parse in a round keeps validity, the fetched records, the link order and the queued titles linked |
| Crawler.RoundStep | cache_wiki.py:42-68 | one parse of a round's next title adds at most that title to the processed ones, processes it unless its article is missing, and forgets no link |
| Crawler.ParseStep | cache_wiki.py:131-134 | one parse inside a round has every fact the round's state needs |
| Crawler.RoundStart | cache_wiki.py:131-134 | a round starts in its state with nothing parsed |
| Crawler.RoundAdvance | cache_wiki.py:131-134 | parsing the next title of a round keeps the round's state with one more title parsed |
| Crawler.RoundTurn | cache_wiki.py:131-134 | the submitted `process_ref` of one title is the parse of it, and keeps the round's state |
| Crawler.RoundEnd | cache_wiki.py:129-139 | wherever a round stops, the titles it processed are among its own |
| Crawler.RoundDone | cache_wiki.py:131-139 | a round that parsed all its titles processed each unless missing, forgot no link, and left no link of its starting records unprocessed unless missing or already queued |
| Crawler.CrawlRound | cache_wiki.py:129-139 | one round stops exactly when more than the limit are processed; it only appends records, only for its own titles; run to its end it processes each of its titles unless missing, and every link of the records it started with unless missing or already queued when it started (inside `Crawl` the queue is empty when a round starts); it keeps validity, the fetched records and the link order |
| Crawler.Crawl | cache_wiki.py:127-142 | at most `depth + 1` rounds; every record's title is reached within `depth + 1` rounds, so it is at most `depth` links from the seed; at most one processed title past the limit; an early stop only past the limit or with nothing processed; an existing seed is processed; with two rounds and no stop past the limit, every link of the seed is processed unless missing; the first record is the seed's; every later record is for a title an earlier record links |
| Crawler.DriverRound | cache_wiki.py:126-140 | one iteration of the loop, a round and `unparsed_update`, breaks exactly when the limit is passed or nothing is processed; every record is reached within the total number of rounds, and when the loop goes on the state after it is that of one more round |
| Crawler.RoundReached | cache_wiki.py:130-139 | a round following `r` rounds appends records only for its titles, which are the seed or linked by an earlier record, so `r + 1` rounds reach every record |
| Hops.ReachedGrows | cache_wiki.py:126-140 | what some rounds reach, more records and at least as many rounds still reach |
| Hops.ReachedRaise | cache_wiki.py:126-140 | if some rounds reach every record, so do more rounds |
| SizeTable.Build | render_graph.py:14-30 | the constructor's fold, `None` where a lookup fails; `BuildSome` states when it succeeds and `BuildDescribes` what it holds |
| SizeTable.AddRef | render_graph.py:22-30 | one reference goes through exactly when the record's title is a key or is the reference itself; the keys gain the reference |
| SizeTable.Count | render_graph.py:23-29 | the reference's entry gains a step, or starts at two steps with no references; other entries are kept |
| SizeTable.AddRefEntry | render_graph.py:22-30 | after one reference, its own entry has grown by a step or started at two, the record's entry has gained it, and every other entry is unchanged |
| SizeTable.AddRefDescribes | render_graph.py:22-30 | one reference keeps the table describing the records |
| SizeTable.AddRefsKeys | render_graph.py:22-30 | a record's references go through exactly when there are none, its title is a key, or its title is its first reference; the keys gain every reference |
| SizeTable.AddRefsDescribes | render_graph.py:22-30 | a record's references keep the table describing the records |
| SizeTable.FirstRecord | render_graph.py:17-21 | the first title alone is a key at one step with no references |
| SizeTable.AddItemDescribes | render_graph.py:16-30 | one record keeps the table describing the records |
| SizeTable.AddItemSome | render_graph.py:16-30 | one record goes through exactly when it has no references, is the first, its title is known, or its title is its own first reference |
| SizeTable.BuildDescribes | render_graph.py:14-30 | the keys are the first title and every reference; each size is a step times one more than its occurrences as a reference; each key's references are those of its records |
| SizeTable.BuildSome | render_graph.py:14-30 | the table is built exactly when every record with references is for a known title or is its own first reference |
| SizeTable.SizeBounds | render_graph.py:12-30 | every size is a positive multiple of the step, at least two steps for a referenced title |
| SizeTable.SizesGrow | render_graph.py:16-30 | a prefix of the records has no key the full table lacks and no larger size |
| Pipeline.LinkedEarlierIsPlaced | render_graph.py:17-30 | records in crawl order never make the renderer look up a missing title |
| Pipeline.CrawlRenders | render_graph.py:14-30 | the crawler's records always build a size table describing them |
| Pipeline.CrawlAndRender | cache_wiki.py:127-142 | the records of any sequential crawl build a size table with a key for the seed |

## Left out

- A request that raises (`requests.get` at cache_wiki.py:46-47 has no `try` and no timeout) does so before line 51 changes anything, and the worker's exception is never read, so it leaves the state exactly as a missing article does; the model gives such a page as `Missing`.
- The fetch is one fixed page per title for the whole crawl. A title tried twice (queued twice, or queued again in a later round) whose first request fails and second succeeds, or whose page changes between attempts, is not modelled; the "processed unless missing" clauses of `Crawler.CrawlRound` and `Crawler.Crawl` rest on this.
- The HTTP request and the HTML parsing (`requests.get`, BeautifulSoup, `.noarticletext`, `.mw-content-ltr`, `next_elements`) are foreign code; the page is an input: missing, or its anchors in document order.
- A page without a `.mw-content-ltr` element raises in the source only after cache_wiki.py:51-53 have marked the title processed and appended its record with no references; the worker's exception is never read (`future.result()` is not called at cache_wiki.py:135-138), so the crawl goes on in the state that `Article([])` gives, and the model uses that page for it.
- An anchor without a `title` attribute would record `None` as a reference; anchors always carry a title here.
- The worker pool, `as_completed`, `cancel_futures` and the keyboard exit flag are concurrency; the driver parses a round's titles one after another and checks the limit after each parse.
- Crawler.Crawl: states that the crawl follows every link, unless missing, for the seed's own links only, not for the titles at every distance below the number of rounds; the other direction, that no record is more than `depth` links from the seed, is stated in full.
- Crawler.Crawl: does not bound the overshoot of up to `thread_number` extra articles that concurrent workers cause; sequentially at most one title goes past the limit.
- Crawler.Parse: requires as many records as processed titles or more, which the class invariant guarantees; under threads the write at `data[index]` is not atomic and is not modelled.
- The order of `neighbors` is that of a Python set; `QueryGraph.Neighbors` leaves it open.
- PathSearch.PathSearch: states that the returned walk is a shortest one, not which of several shortest walks, because that depends on the neighbour order.
- Python `Queue` thread-safety; the queues are sequences.
- JSON and `.env` reading and writing, argparse plumbing, logging and prints are I/O; `ValidateConfig` returns the error message instead of exiting.
- The Neo4j upload (cache_wiki.py:165-196) is a database sink.
- The networkx, matplotlib and bokeh drawing (render_graph.py:33-117) is UI and floating-point layout.

## Findings

| source | as written | input that shows it | evidently intended | confidence | as-written member | corrected member |
|---|---|---|---|---|---|---|
| shortest_path.py:75 | `return result if result else 'Path not found'` treats a hop count of 0 as missing | `--from X --to X` without `-v`, for any article X in the graph: "Path not found", while with `-v` the answer is "X" and a count of 0 | report every count `bfs` returns, testing `result is not None` | medium, not executed | PathSearch.ZeroHopIsNotFound | PathSearch.ShortestPathIntended |

=== FILE: crawler.dfy ===
/**
 The bookkeeping of the crawler (`WikiGraph` in cache_wiki.py): the records
 collected so far, the set of processed titles, the titles to parse in this
 round and those queued for the next one; the parsing of one article; the
 validation of the command-line limits; and a sequential rendering of the
 round-by-round driver.
 */
module Crawler {
  import opened WikiData
  import opened Text
  import opened LinkFilter
  import opened Hops

  /** The crawler state: records in parse order, processed titles, this round's and next round's titles. */
  datatype WikiGraph = WikiGraph(data: seq<Record>, titles: set<Title>, current: seq<Title>, future: seq<Title>)

  /** The titles of the records, in order. */
  function TitlesOf(data: seq<Record>): (ts: seq<Title>)
    ensures |ts| == |data|
    ensures forall i :: 0 <= i < |data| ==> ts[i] == data[i].title
  {
    seq(|data|, i requires 0 <= i < |data| => data[i].title)
  }

  /**
   The class invariant: every processed title has exactly one record, and
   every record belongs to a processed title.
   */
  ghost predicate Valid(c: WikiGraph) {
    Distinct(TitlesOf(c.data)) && Members(TitlesOf(c.data)) == c.titles
  }

  /** Under the invariant there are as many records as processed titles. */
  lemma ValidSizes(c: WikiGraph)
    ensures Valid(c) ==> |c.data| == |c.titles|
  {
    if Valid(c) {
      DistinctCardinality(TitlesOf(c.data));
    }
  }

  /** `WikiGraph(title)`: nothing processed, the seed title to parse in the first round. */
  function New(title: Title): (c: WikiGraph)
    ensures Valid(c) && Len(c) == 0 && c.data == []
    ensures Unparsed(c) == [title] && c.future == []
  {
    assert Members(TitlesOf([])) == {};
    WikiGraph([], {}, [title], [])
  }

  /** `len(wiki_graph)`: the number of processed titles, which is the number of records. */
  function Len(c: WikiGraph): (n: nat)
    ensures Valid(c) ==> n == |c.data|
  {
    ValidSizes(c);
    |c.titles|
  }

  /** `unparsed`: this round's titles, in the order they were queued. */
  function Unparsed(c: WikiGraph): seq<Title> {
    c.current
  }

  /** Start the next round: the queued titles become this round's, and the queue empties. */
  function UnparsedUpdate(c: WikiGraph): (c': WikiGraph)
    ensures Unparsed(c') == c.future && c'.future == []
    ensures c'.data == c.data && Len(c') == Len(c)
    ensures Valid(c) ==> Valid(c')
  {
    c.(current := c.future, future := [])
  }

  const WIKI_PREFIX: string := "https://en.wikipedia.org/wiki/"

  /** The path of an article address, as it appears in the page's own links. */
  const WIKI_PATH: string := "/wiki/"

  /** `get_wiki_url`: the article address, with the spaces of the title made underscores. */
  function WikiUrl(title: Title): (url: string)
    ensures |url| == |WIKI_PREFIX| + |title| && url[..|WIKI_PREFIX|] == WIKI_PREFIX
    ensures ' ' !in url[|WIKI_PREFIX|..]
  {
    var path := Replaced(title, ' ', '_');
    assert (WIKI_PREFIX + path)[|WIKI_PREFIX|..] == path;
    WIKI_PREFIX + path
  }

  /**
   The address is the fixed prefix followed by the title with every space
   replaced by an underscore and every other character kept.
   */
  lemma WikiUrlShape(title: Title)
    ensures |WikiUrl(title)| == |WIKI_PREFIX| + |title|
    ensures WikiUrl(title)[..|WIKI_PREFIX|] == WIKI_PREFIX
    ensures forall i :: 0 <= i < |title| ==>
      WikiUrl(title)[|WIKI_PREFIX| + i] == if title[i] == ' ' then '_' else title[i]
  {
    forall i | 0 <= i < |title|
      ensures WikiUrl(title)[|WIKI_PREFIX| + i] == if title[i] == ' ' then '_' else title[i]
    {
      ReplacedPointwise(title, ' ', '_', i);
    }
  }

  /** A title without underscores is recovered from its address. */
  lemma WikiUrlRoundTrip(title: Title)
    requires '_' !in title
    ensures Replaced(WikiUrl(title)[|WIKI_PREFIX|..], '_', ' ') == title
  {
    assert WikiUrl(title)[|WIKI_PREFIX|..] == Replaced(title, ' ', '_');
    ReplaceBack(title, ' ', '_');
  }

  /**
   `parse`: a processed title or a missing article leaves everything as it
   was and reports `False`. Otherwise the title is marked processed, a record
   is appended, and the record at position `len(titles)` (taken before the
   title was added) receives the links of the page, first occurrences only;
   each new reference that is not a processed title is queued for the next
   round. The record written is the one appended only when there were as many
   records as titles, which `Valid` guarantees.
   */
  function Parse(c: WikiGraph, title: Title, page: Page): (r: (bool, WikiGraph))
    requires |c.titles| <= |c.data|
    ensures title in c.titles || page.Missing? ==> r == (false, c)
    ensures r.0 <==> title !in c.titles && page.Article?
    ensures r.0 ==> r.1.titles == c.titles + {title} && Len(r.1) == Len(c) + 1
    ensures r.0 ==> |r.1.data| == |c.data| + 1 && r.1.current == c.current
    ensures r.0 ==> |r.1.future| >= |c.future| && r.1.future[..|c.future|] == c.future
  {
    if title in c.titles then (false, c)
    else if page.Missing? then (false, c)
    else
      var index := |c.titles|;
      var titles := c.titles + {title};
      var data := c.data + [Record(title, [])];
      var refs0 := data[index].references;
      var refs := DedupAfter(refs0, Qualified(page.anchors));
      var future := c.future + Unknown(refs[|refs0|..], titles);
      (true, WikiGraph(data[index := Record(data[index].title, refs)], titles, c.current, future))
  }

  /**
   On a valid state, a successful parse appends exactly one record, for the
   parsed title, holding the links extracted from the page; the next-round
   queue grows by the extracted links that are not processed titles, so never
   by the parsed title itself; and the state stays valid.
   */
  lemma ParseValid(c: WikiGraph, title: Title, page: Page)
    requires Valid(c)
    ensures |c.titles| <= |c.data|
    ensures Valid(Parse(c, title, page).1)
    ensures Parse(c, title, page).0 ==>
      && Parse(c, title, page).1.data == c.data + [Record(title, Extracted(page.anchors))]
      && Parse(c, title, page).1.future == c.future + Unknown(Extracted(page.anchors), c.titles + {title})
      && title !in Parse(c, title, page).1.future[|c.future|..]
  {
    ValidSizes(c);
    var (ok, c') := Parse(c, title, page);
    if ok {
      var refs := Extracted(page.anchors);
      assert (c.data + [Record(title, [])])[|c.titles| := Record(title, refs)] == c.data + [Record(title, refs)];
      assert refs[0..] == refs;
      assert TitlesOf(c'.data) == TitlesOf(c.data) + [title];
      MembersSnoc(TitlesOf(c.data), title);
      assert title !in TitlesOf(c.data) by {
        assert title !in Members(TitlesOf(c.data));
      }
      UnknownMembers(refs, c.titles + {title});
      assert c'.future[|c.future|..] == Unknown(refs, c.titles + {title});
      assert title !in Members(Unknown(refs, c.titles + {title}));
    }
  }

  /**
   Two pages that link the same unprocessed article both queue it: the code
   keeps no set of queued titles, so the next round lists it twice. Pages
   made of one link anchor are such pages (`SingleLink`).
   */
  lemma QueuedTwice(a: Title, b: Title, page: Page, x: Title)
    requires page.Article? && Extracted(page.anchors) == [x]
    requires a != b && x != a && x != b
    ensures var c1 := Parse(New(a), a, page).1;
      var c2 := Parse(c1, b, page).1;
      c2.future == [x, x]
  {
    var c0 := New(a);
    ParseQueuesOne(c0, a, page, x);
    var c1 := Parse(c0, a, page).1;
    NilConcat(c0.future, [x]);
    assert c1.titles == {a} && c1.future == [x];
    ParseQueuesOne(c1, b, page, x);
    SingletonTwice(c1.future, x);
  }

  /**
   Parsing a new title whose page yields the single link `x`, which is not a
   processed title, queues `x` once more and marks the title processed.
   */
  lemma ParseQueuesOne(c: WikiGraph, t: Title, page: Page, x: Title)
    requires Valid(c) && t !in c.titles && x !in c.titles && x != t
    requires page.Article? && Extracted(page.anchors) == [x]
    ensures |c.titles| <= |c.data|
    ensures Valid(Parse(c, t, page).1)
    ensures Parse(c, t, page).1.titles == c.titles + {t}
    ensures Parse(c, t, page).1.future == c.future + [x]
  {
    ParseValid(c, t, page);
    assert x !in c.titles + {t};
    assert Unknown([x], c.titles + {t}) == [x] by { assert [x][..0] == []; }
  }

  /** A page with one link anchor yields that link's title alone. */
  lemma SingleLink(link: Anchor)
    requires IsLink(link) && !Stops(link)
    ensures Extracted([link]) == [link.title]
  {
    var x := link.title;
    assert LinkTitles([link]) == [x] by {
      assert [link][..0] == [];
    }
    assert [link][1..] == [] && [link][..1] == [link];
    assert Qualified([link]) == [x];
    assert [x][..0] == [];
    assert DedupAfter([], [x][..0]) == [];
  }

  /**
   An anchor whose href is `/wiki/` followed by `s` is a link exactly when
   `s` holds none of the disqualifying substrings; if it does not also end the
   scan, a page of it alone yields its title.
   */
  lemma WikiHrefIsLink(s: string, id: Option<string>, title: Title)
    ensures IsLink(Anchor(id, Some(WIKI_PATH + s), title)) <==>
      forall i :: 0 <= i < |BAD_STRINGS| ==> !Contains(s, BAD_STRINGS[i])
    ensures (id.None? || id.value !in BAD_IDS) && (forall i :: 0 <= i < |BAD_STRINGS| ==> !Contains(s, BAD_STRINGS[i])) ==>
      Extracted([Anchor(id, Some(WIKI_PATH + s), title)]) == [title]
  {
    var href := WIKI_PATH + s;
    assert OccursAt(href, "/wiki", 0);
    ContainsIffOccurs(href, "/wiki");
    forall i | 0 <= i < |BAD_STRINGS| ensures Contains(href, BAD_STRINGS[i]) <==> Contains(s, BAD_STRINGS[i]) {
      PrefixKeepsContains(WIKI_PATH, s, BAD_STRINGS[i]);
    }
    var a := Anchor(id, Some(href), title);
    if (id.None? || id.value !in BAD_IDS) && IsLink(a) {
      SingleLink(a);
    }
  }

  const THREAD_NUMBER: nat := 6

  const DEPTH_ERROR: string := "The depth value must be greater than 0"

  /** The message for a too small article limit; it names `THREAD_NUMBER + 1`. */
  function MaxError(): string {
    "The maximum number of articles must be greater than " + Decimal(THREAD_NUMBER + 1)
  }

  /**
   The argument check of the crawler script: the number of rounds is the
   depth plus one and must exceed 1; the article limit is the requested
   maximum less the worker count and one, and must be positive. The depth is
   checked first.
   */
  function ValidateConfig(depth: int, max: int): (r: Result<(nat, nat)>)
    ensures r.Success? <==> depth >= 1 && max >= THREAD_NUMBER + 2
    ensures depth < 1 ==> r == Failure(DEPTH_ERROR)
    ensures depth >= 1 && max < THREAD_NUMBER + 2 ==> r == Failure(MaxError())
    ensures r.Success? ==> r.value.0 >= 2 && r.value.1 >= 1
    ensures r.Success? ==> r.value.0 - 1 == depth && r.value.1 + THREAD_NUMBER + 1 == max
  {
    var maxDepth := depth + 1;
    if maxDepth <= 1 then Failure(DEPTH_ERROR)
    else
      var maxArticles := max - THREAD_NUMBER - 1;
      if maxArticles <= 0 then Failure(MaxError())
      else Success((maxDepth, maxArticles))
  }

  // ---------------------------------------------------------------------------
  // The round-by-round driver, run sequentially
  // ---------------------------------------------------------------------------

  /** Every record holds the links extracted from the page fetched for its title. */
  ghost predicate Fetched(data: seq<Record>, fetch: Title -> Page) {
    forall i :: 0 <= i < |data| ==>
      fetch(data[i].title).Article? && data[i].references == Extracted(fetch(data[i].title).anchors)
  }

  /** Some record references `t`. */
  ghost predicate Linked(data: seq<Record>, t: Title) {
    exists j :: 0 <= j < |data| && t in data[j].references
  }

  /** Every record after the first is for a title that an earlier record references. */
  ghost predicate LinkedEarlier(data: seq<Record>) {
    forall i :: 0 < i < |data| ==> Linked(data[..i], data[i].title)
  }

  /**
   Every reference of every record is a processed title, is waiting in
   `queue`, or names a missing article: no link is forgotten.
   */
  ghost predicate Covered(data: seq<Record>, titles: set<Title>, queue: seq<Title>, fetch: Title -> Page) {
    forall i, u :: 0 <= i < |data| && u in data[i].references ==> u in titles || u in queue || fetch(u).Missing?
  }

  /**
   After the round that follows `r` rounds, a crawl of `r + 1` rounds reaches
   every record when `r` rounds reached every record before it, every title of
   the round was the seed or linked by a record, and the round appended records
   for its titles only.
   */
  lemma RoundReached(d0: seq<Record>, d: seq<Record>, current: seq<Title>, seed: Title, r: nat)
    requires AllReached(d0, seed, r)
    requires forall u :: u in current ==> u == seed || Linked(d0, u)
    requires |d0| <= |d| && d[..|d0|] == d0
    requires forall i :: |d0| <= i < |d| ==> d[i].title in current
    ensures AllReached(d, seed, r + 1)
  {
    forall i | 0 <= i < |d| ensures Reached(d, seed, d[i].title, r + 1) {
      if i < |d0| {
        assert d[i] == d0[i];
        ReachedGrows(d0, d, seed, d0[i].title, r, r + 1);
      } else if d[i].title != seed {
        var j :| 0 <= j < |d0| && d[i].title in d0[j].references;
        assert d0[j] in d0;
        assert Reached(d0, seed, d[i].title, r + 1);
        ReachedGrows(d0, d, seed, d[i].title, r + 1, r + 1);
      }
    }
  }

  /** One parse inside a round keeps what the driver relies on. */
  lemma CrawlStep(c: WikiGraph, t: Title, fetch: Title -> Page)
    requires Valid(c) && Fetched(c.data, fetch) && LinkedEarlier(c.data)
    requires |c.data| == 0 || Linked(c.data, t)
    requires forall u :: u in c.future ==> Linked(c.data, u)
    ensures |c.titles| <= |c.data|
    ensures var c' := Parse(c, t, fetch(t)).1;
      && Valid(c') && Fetched(c'.data, fetch) && LinkedEarlier(c'.data)
      && Len(c') <= Len(c) + 1 && Len(c') == |c'.data| && c'.current == c.current
      && |c.data| <= |c'.data| && c'.data[..|c.data|] == c.data
      && (|c.data| == 0 && |c'.data| > 0 ==> c'.data[0].title == t)
      && (forall u :: Linked(c.data, u) ==> Linked(c'.data, u))
      && (forall u :: u in c'.future ==> Linked(c'.data, u))
  {
    ParseValid(c, t, fetch(t));
    var (ok, c') := Parse(c, t, fetch(t));
    ValidSizes(c');
    if ok {
      var r := Record(t, Extracted(fetch(t).anchors));
      assert (c.data + [r])[..|c.data|] == c.data;
      AppendKeepsLinks(c.data, r);
      AppendLinkedEarlier(c.data, r);
      AppendFetched(c.data, r, fetch);
      QueuedAreLinked(c.data, c.future, r, c.titles + {t});
    }
  }

  /**
   Parsing the head `t` of the titles still to parse in a round: processed
   titles only grow, and by `t` at most; afterwards `t` is processed unless its
   article is missing; and no link is forgotten.
   */
  lemma RoundStep(c: WikiGraph, t: Title, rest: seq<Title>, fetch: Title -> Page)
    requires Valid(c)
    ensures |c.titles| <= |c.data|
    ensures var c' := Parse(c, t, fetch(t)).1;
      && c.titles <= c'.titles && c'.titles <= c.titles + {t}
      && (t in c'.titles || fetch(t).Missing?)
      && (forall i :: |c.data| <= i < |c'.data| ==> c'.data[i].title == t)
      && (Covered(c.data, c.titles, [t] + rest + c.future, fetch) ==> Covered(c'.data, c'.titles, rest + c'.future, fetch))
  {
    ParseValid(c, t, fetch(t));
    var (ok, c') := Parse(c, t, fetch(t));
    if Covered(c.data, c.titles, [t] + rest + c.future, fetch) {
      forall i, u | 0 <= i < |c'.data| && u in c'.data[i].references
        ensures u in c'.titles || u in rest + c'.future || fetch(u).Missing?
      {
        if ok && i == |c.data| {
          var refs := Extracted(fetch(t).anchors);
          assert c'.data[i] == Record(t, refs);
          UnknownMembers(refs, c.titles + {t});
          if u !in c.titles + {t} {
            assert u in Members(Unknown(refs, c.titles + {t}));
            assert u in c'.future[|c.future|..];
          }
        } else {
          assert c'.data[i] == c.data[i];
          assert u in c.titles || u in [t] + rest + c.future || fetch(u).Missing?;
          if u in c.future {
            assert c'.future[..|c.future|] == c.future;
          }
        }
      }
    }
  }

  lemma AppendKeepsLinks(data: seq<Record>, r: Record)
    ensures forall u :: Linked(data, u) ==> Linked(data + [r], u)
    ensures r.references != [] ==> forall u :: u in r.references ==> Linked(data + [r], u)
  {
    forall u | Linked(data, u) ensures Linked(data + [r], u) {
      var j :| 0 <= j < |data| && u in data[j].references;
      assert (data + [r])[j] == data[j];
    }
    forall u | u in r.references ensures Linked(data + [r], u) {
      assert (data + [r])[|data|] == r;
    }
  }

  lemma AppendLinkedEarlier(data: seq<Record>, r: Record)
    requires LinkedEarlier(data)
    requires |data| == 0 || Linked(data, r.title)
    ensures LinkedEarlier(data + [r])
  {
    var d := data + [r];
    forall i | 0 < i < |d| ensures Linked(d[..i], d[i].title) {
      if i < |data| {
        assert d[..i] == data[..i] && d[i] == data[i];
      } else {
        assert d[..i] == data && d[i] == r;
      }
    }
  }

  lemma AppendFetched(data: seq<Record>, r: Record, fetch: Title -> Page)
    requires Fetched(data, fetch)
    requires fetch(r.title).Article? && r.references == Extracted(fetch(r.title).anchors)
    ensures Fetched(data + [r], fetch)
  {
    var d := data + [r];
    forall i | 0 <= i < |d|
      ensures fetch(d[i].title).Article? && d[i].references == Extracted(fetch(d[i].title).anchors)
    {
      if i < |data| { assert d[i] == data[i]; }
    }
  }

  /** Titles queued by a parse are referenced by the record it appends. */
  lemma QueuedAreLinked(data: seq<Record>, future: seq<Title>, r: Record, known: set<Title>)
    requires forall u :: u in future ==> Linked(data, u)
    ensures forall u :: u in future + Unknown(r.references, known) ==> Linked(data + [r], u)
  {
    AppendKeepsLinks(data, r);
    UnknownMembers(r.references, known);
    forall u | u in future + Unknown(r.references, known) ensures Linked(data + [r], u) {
      if u !in future {
        assert u in Members(Unknown(r.references, known));
      }
    }
  }

  /**
   The crawl loop of the script, with the worker pool replaced by parsing
   the titles of a round one after another: at most `maxDepth` rounds; after
   each parse the crawl stops once more than `maxArticles` titles are
   processed; after each round the queued titles become the next round's, and
   the crawl stops when nothing at all was processed. `rounds` counts the
   rounds run, and every record's title is reached within `maxDepth` rounds,
   so it is at most `maxDepth - 1` links from the seed.
   */
  method Crawl(seed: Title, maxDepth: nat, maxArticles: nat, fetch: Title -> Page) returns (c: WikiGraph, rounds: nat)
    ensures Valid(c) && Fetched(c.data, fetch) && LinkedEarlier(c.data)
    ensures rounds <= maxDepth
    ensures Len(c) <= maxArticles + 1
    ensures rounds < maxDepth ==> Len(c) > maxArticles || Len(c) == 0
    ensures |c.data| > 0 ==> c.data[0].title == seed
    ensures maxDepth >= 1 && fetch(seed).Article? ==> |c.data| > 0
    ensures maxDepth >= 2 && Len(c) <= maxArticles && |c.data| > 0 ==>
      forall u :: u in c.data[0].references ==> u in c.titles || fetch(u).Missing?
    ensures AllReached(c.data, seed, maxDepth)
  {
    c := New(seed);
    rounds := 0;
    while rounds < maxDepth
      invariant DriverState(c, seed, maxDepth, maxArticles, rounds, fetch)
      invariant AllReached(c.data, seed, maxDepth)
    {
      var stop;
      c, stop := DriverRound(c, seed, maxDepth, maxArticles, rounds, fetch);
      rounds := rounds + 1;
      if stop {
        break;
      }
    }
  }

  /**
   The driver between two rounds, after `rounds` of them: what the crawl
   promises so far, an empty queue, no forgotten link, and every record
   reached within `rounds` rounds.
   */
  ghost predicate DriverState(c: WikiGraph, seed: Title, maxDepth: nat, maxArticles: nat, rounds: nat, fetch: Title -> Page) {
    && rounds <= maxDepth
    && Valid(c) && Fetched(c.data, fetch) && LinkedEarlier(c.data)
    && Len(c) <= maxArticles && Len(c) == |c.data|
    && (|c.data| > 0 ==> c.data[0].title == seed)
    && (|c.data| == 0 ==> c.current == [seed])
    && (forall u :: u in c.current ==> |c.data| == 0 || Linked(c.data, u))
    && c.future == [] && Covered(c.data, c.titles, c.current, fetch)
    && (rounds >= 1 ==> |c.data| > 0)
    && (rounds >= 2 ==> forall u :: u in c.data[0].references ==> u in c.titles || fetch(u).Missing?)
    && AllReached(c.data, seed, rounds)
  }

  /**
   One iteration of the driver loop: a round, then `unparsed_update`; `stop`
   says whether the loop breaks. Every record is reached within `maxDepth`
   rounds, and when the loop goes on the driver state holds for one
   more round.
   */
  method DriverRound(c0: WikiGraph, seed: Title, maxDepth: nat, maxArticles: nat, rounds: nat, fetch: Title -> Page)
    returns (c: WikiGraph, stop: bool)
    requires rounds < maxDepth && DriverState(c0, seed, maxDepth, maxArticles, rounds, fetch)
    ensures Valid(c) && Fetched(c.data, fetch) && LinkedEarlier(c.data)
    ensures Len(c) <= maxArticles + 1
    ensures stop <==> Len(c) > maxArticles || Len(c) == 0
    ensures |c.data| > 0 ==> c.data[0].title == seed
    ensures fetch(seed).Article? ==> |c.data| > 0
    ensures AllReached(c.data, seed, maxDepth)
    ensures !stop ==> DriverState(c, seed, maxDepth, maxArticles, rounds + 1, fetch)
  {
    ConcatNil(c0.current, c0.future);
    var mid, exit := CrawlRound(c0, seed, maxArticles, fetch);
    c := UnparsedUpdate(mid);
    if !exit && |c0.data| == 0 {
      assert seed in c0.current;
    }
    if !exit && |c0.data| > 0 {
      assert c.data[0] == c0.data[0];
    }
    assert forall u :: u in c0.current ==> u == seed || Linked(c0.data, u);
    RoundReached(c0.data, c.data, c0.current, seed, rounds);
    ReachedRaise(c.data, seed, rounds + 1, maxDepth);
    stop := exit || Len(c) == 0;
  }

  /**
   One round of the driver: parse this round's titles in order, stopping as
   soon as more than `maxArticles` titles are processed. Records are only
   appended, and only for titles of the round. A round that runs to its end
   has processed each of its titles, unless the article is missing, and so
   every link of the records it started with.
   */
  method CrawlRound(c0: WikiGraph, seed: Title, maxArticles: nat, fetch: Title -> Page)
    returns (c: WikiGraph, exit: bool)
    requires Valid(c0) && Fetched(c0.data, fetch) && LinkedEarlier(c0.data)
    requires Len(c0) <= maxArticles && Len(c0) == |c0.data|
    requires |c0.data| > 0 ==> c0.data[0].title == seed
    requires |c0.data| == 0 ==> c0.current == [seed] && c0.future == []
    requires forall u :: u in c0.current ==> |c0.data| == 0 || Linked(c0.data, u)
    requires forall u :: u in c0.future ==> Linked(c0.data, u)
    requires Covered(c0.data, c0.titles, c0.current + c0.future, fetch)
    ensures Valid(c) && Fetched(c.data, fetch) && LinkedEarlier(c.data)
    ensures Len(c) == |c.data| && Len(c) <= maxArticles + 1
    ensures exit <==> Len(c) > maxArticles
    ensures |c.data| > 0 ==> c.data[0].title == seed
    ensures forall u :: u in c.future ==> Linked(c.data, u)
    ensures |c0.data| <= |c.data| && c.data[..|c0.data|] == c0.data
    ensures forall i :: |c0.data| <= i < |c.data| ==> c.data[i].title in c0.current
    ensures c.current == c0.current && |c0.future| <= |c.future|
    ensures c0.titles <= c.titles && c.titles <= c0.titles + Members(c0.current)
    ensures !exit ==> forall t :: t in c0.current ==> t in c.titles || fetch(t).Missing?
    ensures !exit ==> Covered(c.data, c.titles, c.future, fetch)
    ensures !exit ==> forall i, u :: 0 <= i < |c0.data| && u in c0.data[i].references ==>
      u in c.titles || u in c0.future || fetch(u).Missing?
  {
    c := c0;
    exit := false;
    var refs := Unparsed(c);
    var k := 0;
    RoundStart(c0, seed, fetch);
    while k < |refs| && !exit
      invariant RoundState(c0, c, k, seed, fetch)
      invariant exit <==> Len(c) > maxArticles
      invariant Len(c) <= maxArticles + 1
    {
      c := RoundTurn(c0, c, k, seed, fetch);
      k := k + 1;
      exit := Len(c) > maxArticles;
    }
    RoundEnd(c0, c, k, seed, fetch);
    if !exit {
      RoundDone(c0, c, seed, fetch);
    }
  }

  /** Parse the `k`-th title of the round. */
  method RoundTurn(c0: WikiGraph, c: WikiGraph, k: nat, seed: Title, fetch: Title -> Page) returns (next: WikiGraph)
    requires RoundState(c0, c, k, seed, fetch) && k < |c0.current|
    ensures next == Parse(c, c0.current[k], fetch(c0.current[k])).1
    ensures RoundState(c0, next, k + 1, seed, fetch) && Len(next) <= Len(c) + 1
  {
    var t := c0.current[k];
    assert t in c.current;
    ParseStep(c, t, c0.current[k + 1..], fetch);
    var (_, c') := Parse(c, t, fetch(t));
    RoundAdvance(c0, c, c', k, seed, fetch);
    next := c';
  }

  /**
   The state of a round that started from `c0` after parsing its first `k`
   titles: everything the driver relies on holds; records were only appended;
   the titles processed so far are among the first `k`, each of which is
   processed unless missing; and no link is forgotten.
   */
  ghost predicate RoundState(c0: WikiGraph, c: WikiGraph, k: nat, seed: Title, fetch: Title -> Page) {
    var refs := c0.current;
    && k <= |refs| && c.current == refs
    && Valid(c) && Fetched(c.data, fetch) && LinkedEarlier(c.data)
    && Len(c) == |c.data|
    && (|c.data| > 0 ==> c.data[0].title == seed)
    && (|c.data| == 0 ==> refs == [seed])
    && (forall j :: k <= j < |refs| ==> |c.data| == 0 || Linked(c.data, refs[j]))
    && (forall u :: u in c.future ==> Linked(c.data, u))
    && |c0.data| <= |c.data| && c.data[..|c0.data|] == c0.data && |c0.future| <= |c.future|
    && (forall i :: |c0.data| <= i < |c.data| ==> c.data[i].title in refs)
    && c0.titles <= c.titles && c.titles <= c0.titles + Members(refs[..k])
    && (forall j :: 0 <= j < k ==> refs[j] in c.titles || fetch(refs[j]).Missing?)
    && Covered(c.data, c.titles, refs[k..] + c.future, fetch)
  }

  lemma RoundStart(c0: WikiGraph, seed: Title, fetch: Title -> Page)
    requires Valid(c0) && Fetched(c0.data, fetch) && LinkedEarlier(c0.data)
    requires Len(c0) == |c0.data|
    requires |c0.data| > 0 ==> c0.data[0].title == seed
    requires |c0.data| == 0 ==> c0.current == [seed] && c0.future == []
    requires forall u :: u in c0.current ==> |c0.data| == 0 || Linked(c0.data, u)
    requires forall u :: u in c0.future ==> Linked(c0.data, u)
    requires Covered(c0.data, c0.titles, c0.current + c0.future, fetch)
    ensures RoundState(c0, c0, 0, seed, fetch)
  {
    var refs := c0.current;
    assert refs[0..] == refs && refs[..0] == [];
    forall j | 0 <= j < |refs| ensures |c0.data| == 0 || Linked(c0.data, refs[j]) {
      assert refs[j] in c0.current;
    }
  }

  /**
   What one parse of `t`, with `rest` still to parse in the round, guarantees
   of the state `c'` it leaves.
   */
  ghost predicate StepFacts(c: WikiGraph, t: Title, rest: seq<Title>, c': WikiGraph, fetch: Title -> Page) {
    && Valid(c') && Fetched(c'.data, fetch) && LinkedEarlier(c'.data)
    && Len(c') == |c'.data| && c'.current == c.current
    && |c.data| <= |c'.data| && c'.data[..|c.data|] == c.data && |c.future| <= |c'.future|
    && (|c.data| == 0 && |c'.data| > 0 ==> c'.data[0].title == t)
    && (forall u :: Linked(c.data, u) ==> Linked(c'.data, u))
    && (forall u :: u in c'.future ==> Linked(c'.data, u))
    && c.titles <= c'.titles && c'.titles <= c.titles + {t}
    && (t in c'.titles || fetch(t).Missing?)
    && (forall i :: |c.data| <= i < |c'.data| ==> c'.data[i].title == t)
    && (Covered(c.data, c.titles, [t] + rest + c.future, fetch) ==> Covered(c'.data, c'.titles, rest + c'.future, fetch))
  }

  /** A parse inside a round has the facts `StepFacts` lists. */
  lemma ParseStep(c: WikiGraph, t: Title, rest: seq<Title>, fetch: Title -> Page)
    requires Valid(c) && Fetched(c.data, fetch) && LinkedEarlier(c.data)
    requires |c.data| == 0 || Linked(c.data, t)
    requires forall u :: u in c.future ==> Linked(c.data, u)
    ensures |c.titles| <= |c.data|
    ensures StepFacts(c, t, rest, Parse(c, t, fetch(t)).1, fetch)
  {
    CrawlStep(c, t, fetch);
    RoundStep(c, t, rest, fetch);
  }

  /** Parsing the next title of the round keeps the round's state, with one more title parsed. */
  lemma RoundAdvance(c0: WikiGraph, c: WikiGraph, next: WikiGraph, k: nat, seed: Title, fetch: Title -> Page)
    requires RoundState(c0, c, k, seed, fetch) && k < |c0.current|
    requires StepFacts(c, c0.current[k], c0.current[k + 1..], next, fetch)
    ensures RoundState(c0, next, k + 1, seed, fetch)
  {
    var refs := c0.current;
    DropCons(refs, k);
    MembersTake(refs, k);
    TakeTake(next.data, |c.data|, |c0.data|);
    forall i | |c0.data| <= i < |next.data| ensures next.data[i].title in refs {
      if i < |c.data| {
        assert next.data[i] == c.data[..|c.data|][i];
      }
    }
  }

  /** Wherever a round stops, it has processed only titles of the round. */
  lemma RoundEnd(c0: WikiGraph, c: WikiGraph, k: nat, seed: Title, fetch: Title -> Page)
    requires RoundState(c0, c, k, seed, fetch)
    ensures c0.titles <= c.titles && c.titles <= c0.titles + Members(c0.current)
  {
    MembersPrefix(c0.current, k);
  }

  /**
   A round that parsed all its titles has processed each, unless missing;
   no link is forgotten; and every link of the records it started with is
   processed, missing, or was already queued when it started.
   */
  lemma RoundDone(c0: WikiGraph, c: WikiGraph, seed: Title, fetch: Title -> Page)
    requires RoundState(c0, c, |c0.current|, seed, fetch)
    requires Covered(c0.data, c0.titles, c0.current + c0.future, fetch)
    ensures forall t :: t in c0.current ==> t in c.titles || fetch(t).Missing?
    ensures Covered(c.data, c.titles, c.future, fetch)
    ensures forall i, u :: 0 <= i < |c0.data| && u in c0.data[i].references ==>
      u in c.titles || u in c0.future || fetch(u).Missing?
  {
    var refs := c0.current;
    NilConcat(refs[|refs|..], c.future);
    forall i, u | 0 <= i < |c0.data| && u in c0.data[i].references
      ensures u in c.titles || u in c0.future || fetch(u).Missing?
    {
      assert u in c0.titles || u in refs + c0.future || fetch(u).Missing?;
      if u in refs {
        var j :| 0 <= j < |refs| && refs[j] == u;
      }
    }
  }
}

=== FILE: hops.dfy ===
/**
 Distance from the seed article through the crawled records, counted in
 rounds of the crawler: the first round parses the seed, and each further
 round follows one more link.
 */
module Hops {
  import opened WikiData

  /**
   A crawl of `n` rounds from `seed` reaches `t` through the records: `t` is
   the seed and there is at least one round, or a record whose title a crawl
   of `n - 1` rounds reaches references it. So `t` is at most `n - 1` links
   away from the seed.
   */
  ghost predicate Reached(data: seq<Record>, seed: Title, t: Title, n: nat)
    decreases n
  {
    n > 0 && (t == seed || exists r :: r in data && t in r.references && Reached(data, seed, r.title, n - 1))
  }

  /** A crawl of `n` rounds from `seed` reaches the title of every record. */
  ghost predicate AllReached(data: seq<Record>, seed: Title, n: nat) {
    forall i :: 0 <= i < |data| ==> Reached(data, seed, data[i].title, n)
  }

  /** What `n` rounds reach, more records and at least as many rounds still reach. */
  lemma {:induction false} ReachedGrows(data: seq<Record>, data': seq<Record>, seed: Title, t: Title, n: nat, m: nat)
    requires |data| <= |data'| && data'[..|data|] == data && n <= m
    requires Reached(data, seed, t, n)
    ensures Reached(data', seed, t, m)
    decreases n
  {
    if t != seed {
      var r :| r in data && t in r.references && Reached(data, seed, r.title, n - 1);
      ReachedGrows(data, data', seed, r.title, n - 1, m - 1);
      assert r in data'[..|data|];
    }
  }

  lemma ReachedRaise(data: seq<Record>, seed: Title, n: nat, m: nat)
    requires n <= m
    requires AllReached(data, seed, n)
    ensures AllReached(data, seed, m)
  {
    forall i | 0 <= i < |data| ensures Reached(data, seed, data[i].title, m) {
      ReachedGrows(data, data, seed, data[i].title, n, m);
    }
  }
}

=== FILE: link_filter.dfy ===
/**
 Which links of a fetched article the crawler keeps (cache_wiki.py, `WikiGraph.parse`).
 The page is given as its anchors in document order. Each anchor has an
 optional `id`, an optional `href` and its `title` attribute. Scanning stops at
 the first anchor with an href whose id marks the end of the article body.
 Before that point, an anchor counts when its href names another article.
 */
module LinkFilter {
  import opened WikiData
  import opened Text

  /** An `<a>` element: its `id` and `href` attributes, when present, and its `title`. */
  datatype Anchor = Anchor(id: Option<string>, href: Option<string>, title: Title)

  /**
   A fetched page: `Missing` when the article does not exist (`.noarticletext`)
   or when the request raised, both of which leave the crawler unchanged; or
   the anchors from the start of the content to the end of the document, in
   document order.
   */
  datatype Page = Missing | Article(anchors: seq<Anchor>)

  /** Ids of the sections after which nothing belongs to the article body. */
  const BAD_IDS: seq<string> := ["References", "catlinks", "External_links", "Notes", "Footnotes", "Citations"]

  /** Substrings that disqualify an href: citations, external and special pages. */
  const BAD_STRINGS: seq<string> :=
    ["cite_note", "Citation_needed", "NOTRS", "https", "(disambiguation)", ":", "action="]

  /** `element.get('href')` is truthy: present and non-empty. */
  predicate HasHref(a: Anchor) {
    a.href.Some? && a.href.value != ""
  }

  /** The anchor ends the scan: it has an href and one of the section ids. */
  predicate Stops(a: Anchor) {
    HasHref(a) && a.id.Some? && a.id.value in BAD_IDS
  }

  /** The href names an article: it contains `/wiki` and none of the bad substrings. */
  predicate IsArticleHref(h: string) {
    Contains(h, "/wiki") && forall i :: 0 <= i < |BAD_STRINGS| ==> !Contains(h, BAD_STRINGS[i])
  }

  /** The anchor is a link the crawler follows, provided the scan reaches it. */
  predicate IsLink(a: Anchor) {
    HasHref(a) && IsArticleHref(a.href.value)
  }

  /** The position of the first anchor that stops the scan, or the number of anchors if none does. */
  function StopIndex(anchors: seq<Anchor>): (k: nat)
    ensures k <= |anchors|
    ensures forall i :: 0 <= i < k ==> !Stops(anchors[i])
    ensures k < |anchors| ==> Stops(anchors[k])
  {
    if anchors == [] then 0
    else if Stops(anchors[0]) then 0
    else 1 + StopIndex(anchors[1..])
  }

  /** The titles of the link anchors among `anchors`, in order and with repetitions. */
  function LinkTitles(anchors: seq<Anchor>): seq<Title> {
    if anchors == [] then []
    else LinkTitles(anchors[..|anchors| - 1]) + (if IsLink(Last(anchors)) then [Last(anchors).title] else [])
  }

  /** The titles the scan considers: the links before the stopping anchor. */
  function Qualified(anchors: seq<Anchor>): seq<Title> {
    LinkTitles(anchors[..StopIndex(anchors)])
  }

  /** A title is among the link titles exactly when some link anchor carries it. */
  lemma {:induction false} LinkTitlesMembers(anchors: seq<Anchor>, t: Title)
    ensures t in LinkTitles(anchors) <==> exists i :: 0 <= i < |anchors| && IsLink(anchors[i]) && anchors[i].title == t
  {
    if anchors != [] {
      var front := anchors[..|anchors| - 1];
      LinkTitlesMembers(front, t);
      if t in LinkTitles(front) {
        var i :| 0 <= i < |front| && IsLink(front[i]) && front[i].title == t;
        assert anchors[i] == front[i];
      }
      if exists i :: 0 <= i < |anchors| && IsLink(anchors[i]) && anchors[i].title == t {
        var i :| 0 <= i < |anchors| && IsLink(anchors[i]) && anchors[i].title == t;
        if i < |front| {
          assert front[i] == anchors[i];
        }
      }
    }
  }

  /**
   The considered titles are exactly the titles of link anchors placed before
   every anchor that stops the scan.
   */
  lemma QualifiedMembers(anchors: seq<Anchor>, t: Title)
    ensures t in Qualified(anchors) <==>
      exists i :: 0 <= i < |anchors| && IsLink(anchors[i]) && anchors[i].title == t
        && forall j :: 0 <= j <= i ==> !Stops(anchors[j])
  {
    var k := StopIndex(anchors);
    var cut := anchors[..k];
    LinkTitlesMembers(cut, t);
    if t in Qualified(anchors) {
      var i :| 0 <= i < |cut| && IsLink(cut[i]) && cut[i].title == t;
      assert anchors[i] == cut[i];
    }
    if exists i :: 0 <= i < |anchors| && IsLink(anchors[i]) && anchors[i].title == t
        && forall j :: 0 <= j <= i ==> !Stops(anchors[j]) {
      var i :| 0 <= i < |anchors| && IsLink(anchors[i]) && anchors[i].title == t
        && forall j :: 0 <= j <= i ==> !Stops(anchors[j]);
      assert i < k;
      assert cut[i] == anchors[i];
    }
  }

  /** `seen` followed by the elements of `s` not yet present, each at its first occurrence. */
  function DedupAfter<T(==)>(seen: seq<T>, s: seq<T>): (r: seq<T>)
    ensures |seen| <= |r| && r[..|seen|] == seen
  {
    if s == [] then seen
    else
      var d := DedupAfter(seen, s[..|s| - 1]);
      if Last(s) in d then d else d + [Last(s)]
  }

  /** The elements of `s` without repetitions, in order of first occurrence. */
  function Dedup<T(==)>(s: seq<T>): seq<T> {
    DedupAfter([], s)
  }

  /** The added elements are exactly those of `s`, and nothing is added twice. */
  lemma {:induction false} DedupAfterMembers<T>(seen: seq<T>, s: seq<T>)
    ensures Members(DedupAfter(seen, s)) == Members(seen) + Members(s)
    ensures Distinct(seen) ==> Distinct(DedupAfter(seen, s))
  {
    if s != [] {
      var front := s[..|s| - 1];
      var d := DedupAfter(seen, front);
      DedupAfterMembers(seen, front);
      MembersFront(s);
      MembersSnoc(d, Last(s));
    }
  }

  /**
   The deduplicated sequence keeps first occurrences in order: of two of its
   elements, the earlier one occurs in `s` before any occurrence of the later one.
   */
  lemma {:induction false} DedupFirstOccurrence<T>(s: seq<T>)
    ensures forall i, j :: 0 <= i < j < |Dedup(s)| ==>
      exists a :: 0 <= a < |s| && s[a] == Dedup(s)[i] && Dedup(s)[j] !in s[..a + 1]
  {
    if s != [] {
      var front := s[..|s| - 1];
      var d := Dedup(front);
      DedupFirstOccurrence(front);
      DedupAfterMembers([], front);
      assert Dedup(s) == if Last(s) in d then d else d + [Last(s)];
      forall i, j | 0 <= i < j < |Dedup(s)|
        ensures exists a :: 0 <= a < |s| && s[a] == Dedup(s)[i] && Dedup(s)[j] !in s[..a + 1]
      {
        if j < |d| {
          var a :| 0 <= a < |front| && front[a] == d[i] && d[j] !in front[..a + 1];
          assert s[..a + 1] == front[..a + 1];
          assert s[a] == Dedup(s)[i] && Dedup(s)[j] == d[j];
        } else {
          assert Last(s) !in d && Dedup(s)[j] == Last(s);
          assert Members(d) == Members(front);
          assert d[i] in Members(front);
          var a :| 0 <= a < |front| && front[a] == d[i];
          assert Last(s) !in Members(d);
          assert Last(s) !in front;
          assert s[..a + 1] == front[..a + 1];
        }
      }
    } else {
      assert Dedup(s) == [];
    }
  }

  /** The elements of `ts` not in `known`, in order. */
  function Unknown(ts: seq<Title>, known: set<Title>): seq<Title> {
    if ts == [] then []
    else Unknown(ts[..|ts| - 1], known) + (if Last(ts) !in known then [Last(ts)] else [])
  }

  lemma {:induction false} UnknownMembers(ts: seq<Title>, known: set<Title>)
    ensures Members(Unknown(ts, known)) == Members(ts) - known
  {
    if ts != [] {
      var front := ts[..|ts| - 1];
      UnknownMembers(front, known);
      MembersFront(ts);
      MembersSnoc(Unknown(front, known), Last(ts));
    }
  }

  /**
   The anchor loop of `parse`: stop at the first anchor that stops the scan;
   for each link anchor whose title is not yet among the references, append
   it, and queue it for the next round when it is not a processed title.
   */
  method ScanLinks(anchors: seq<Anchor>, titles: set<Title>, refs0: seq<Title>, future0: seq<Title>)
    returns (refs: seq<Title>, future: seq<Title>)
    ensures refs == DedupAfter(refs0, Qualified(anchors))
    ensures future == future0 + Unknown(refs[|refs0|..], titles)
  {
    refs, future := refs0, future0;
    var i := 0;
    while i < |anchors|
      invariant 0 <= i <= |anchors|
      invariant forall j :: 0 <= j < i ==> !Stops(anchors[j])
      invariant refs == DedupAfter(refs0, LinkTitles(anchors[..i]))
      invariant future == future0 + Unknown(refs[|refs0|..], titles)
    {
      var a := anchors[i];
      ghost var nextRefs := DedupAfter(refs0, LinkTitles(anchors[..i + 1]));
      ghost var nextFuture := future0 + Unknown(nextRefs[|refs0|..], titles);
      LinkTitlesStep(anchors, i);
      ScanNext(refs0, LinkTitles(anchors[..i]), LinkTitles(anchors[..i + 1]), a.title, IsLink(a),
               titles, refs, future0, future);
      if HasHref(a) {
        if a.id.Some? && a.id.value in BAD_IDS {
          break;
        }
        if IsArticleHref(a.href.value) {
          var ref := a.title;
          if ref !in refs {
            refs := refs + [ref];
            if ref !in titles {
              future := future + [ref];
            }
          }
        }
      }
      assert refs == nextRefs && future == nextFuture;
      i := i + 1;
    }
    assert i == StopIndex(anchors);
  }

  /**
   What one more considered title does to the references and the queue: `x`
   is appended when it is taken and new, and queued when it is also not a
   processed title.
   */
  lemma ScanNext(refs0: seq<Title>, known: seq<Title>, next: seq<Title>, x: Title, take: bool,
                 titles: set<Title>, refs: seq<Title>, future0: seq<Title>, future: seq<Title>)
    requires next == if take then known + [x] else known
    requires refs == DedupAfter(refs0, known)
    requires future == future0 + Unknown(refs[|refs0|..], titles)
    ensures take && x !in refs ==>
      && DedupAfter(refs0, next) == refs + [x]
      && future0 + Unknown(DedupAfter(refs0, next)[|refs0|..], titles) == future + (if x !in titles then [x] else [])
    ensures !take || x in refs ==>
      && DedupAfter(refs0, next) == refs
      && future0 + Unknown(DedupAfter(refs0, next)[|refs0|..], titles) == future
  {
    if take {
      DedupStep(refs0, known, x);
      if x !in refs {
        ScanAppends(refs0, refs, x, titles);
      }
    }
  }

  lemma LinkTitlesStep(anchors: seq<Anchor>, i: nat)
    requires i < |anchors|
    ensures LinkTitles(anchors[..i + 1])
      == if IsLink(anchors[i]) then LinkTitles(anchors[..i]) + [anchors[i].title] else LinkTitles(anchors[..i])
  {
    assert anchors[..i + 1][..i] == anchors[..i];
  }

  /** Deduplicating one more element appends it exactly when it is new. */
  lemma DedupStep<T>(seen: seq<T>, s: seq<T>, x: T)
    ensures x in DedupAfter(seen, s) ==> DedupAfter(seen, s + [x]) == DedupAfter(seen, s)
    ensures x !in DedupAfter(seen, s) ==> DedupAfter(seen, s + [x]) == DedupAfter(seen, s) + [x]
  {
    assert (s + [x])[..|s|] == s;
  }

  /** Appending a new reference queues it exactly when it is not a processed title. */
  lemma ScanAppends(refs0: seq<Title>, refs: seq<Title>, ref: Title, titles: set<Title>)
    requires |refs0| <= |refs|
    ensures Unknown((refs + [ref])[|refs0|..], titles)
      == Unknown(refs[|refs0|..], titles) + (if ref !in titles then [ref] else [])
  {
    var added := refs[|refs0|..];
    assert (refs + [ref])[|refs0|..] == added + [ref];
    assert (added + [ref])[..|added|] == added;
  }

  /** The references `parse` records for a page: the considered titles, first occurrences only. */
  function Extracted(anchors: seq<Anchor>): (refs: seq<Title>)
    ensures Distinct(refs)
  {
    DedupAfterMembers([], Qualified(anchors));
    Dedup(Qualified(anchors))
  }

  /**
   The recorded references have no repetitions, and a title is recorded
   exactly when a link anchor before every stopping anchor carries it.
   */
  lemma ExtractedLinks(anchors: seq<Anchor>, t: Title)
    ensures Distinct(Extracted(anchors))
    ensures t in Extracted(anchors) <==>
      exists i :: 0 <= i < |anchors| && IsLink(anchors[i]) && anchors[i].title == t
        && forall j :: 0 <= j <= i ==> !Stops(anchors[j])
  {
    DedupAfterMembers([], Qualified(anchors));
    QualifiedMembers(anchors, t);
    assert t in Members(Extracted(anchors)) <==> t in Extracted(anchors);
    assert t in Members(Qualified(anchors)) <==> t in Qualified(anchors);
  }
}

=== FILE: path_search.dfy ===
/**
 The two breadth-first searches of `GraphFromWiki` (shortest_path.py) and the
 `shortest_path` wrapper that renders their result.
 */
module PathSearch {
  import opened WikiData
  import opened Text
  import opened QueryGraph

  /**
   What the level search knows at the head of its loop: `current` holds
   vertices `level` edges away, `next` vertices one edge further; everything
   leaving a visited vertex is visited or queued; the target is never marked;
   and an unmarked vertex is at least `level` edges away, exactly `level` only
   if it is still in `current`.
   */
  ghost predicate LevelInvariant(g: Graph, start: Title, end: Title, current: seq<Title>,
                                 next: seq<Title>, visited: set<Title>, level: nat)
  {
    && (forall x :: x in current ==> x in Layer(g, start, level))
    && (forall x :: x in next ==> x in Layer(g, start, level + 1))
    && (forall u, w :: u in visited && (u, w) in g.edges ==> w in visited || w in current || w in next)
    && (start in visited || start in current || start in next)
    && end !in visited
    && Settled(g, start, visited, level, Members(current))
  }

  /**
   Every vertex fewer than `f` edges from `start` is marked, and every one
   exactly `f` edges away is marked or in `frontier`.
   */
  ghost predicate Settled(g: Graph, start: Title, marked: set<Title>, f: nat, frontier: set<Title>) {
    && (forall k: nat :: k < f ==> Layer(g, start, k) <= marked)
    && Layer(g, start, f) <= marked + frontier
  }

  /** Taking the head of `current` and expanding it when it was unmarked keeps the invariant. */
  lemma LevelTake(g: Graph, start: Title, end: Title, current: seq<Title>, next: seq<Title>,
                  visited: set<Title>, level: nat, ns: seq<Title>, next': seq<Title>, visited': set<Title>)
    requires LevelInvariant(g, start, end, current, next, visited, level)
    requires current != [] && current[0] != end
    requires visited' == visited + {current[0]}
    requires current[0] !in visited ==> forall w :: w in ns <==> (current[0], w) in g.edges
    requires next' == if current[0] in visited then next else next + ns
    ensures LevelInvariant(g, start, end, current[1..], next', visited', level)
  {
    var v := current[0];
    if v !in visited {
      forall w | w in ns ensures w in Layer(g, start, level + 1) {
        LayerStep(g, start, level, v, w);
      }
    }
    forall x | x in current ensures x == v || x in current[1..] {
      var i :| 0 <= i < |current| && current[i] == x;
      if i > 0 { assert current[1..][i - 1] == x; }
    }
  }

  /** When `current` runs dry, `next` holds exactly the unmarked vertices one level further. */
  lemma LevelSwap(g: Graph, start: Title, end: Title, next: seq<Title>, visited: set<Title>, level: nat)
    requires LevelInvariant(g, start, end, [], next, visited, level)
    ensures LevelInvariant(g, start, end, next, [], visited, level + 1)
  {
    forall x | x in Layer(g, start, level + 1) && x !in visited ensures x in next {
      var u := LayerPredecessor(g, start, level, x);
    }
  }

  /**
   `bfs`: a level-by-level search with a queue for the current level and one
   for the next. A vertex is marked visited only when it is taken off the
   queue, so the queues may hold the same vertex several times; a marked
   vertex is never expanded again, which is what bounds the work.
   */
  method LevelSearch(g: Graph, start: Title, end: Title) returns (r: Option<nat>)
    ensures r.Some? ==> IsDistance(g, start, end, r.value)
    ensures r.None? <==> !Reachable(g, start, end)
    ensures start == end ==> r == Some(0)
  {
    ghost var universe := Universe(g, start);
    var current := [start];
    var next: seq<Title> := [];
    var visited: set<Title> := {};
    var level: nat := 0;
    while current != []
      invariant LevelState(g, start, end, universe, current, next, visited, level)
      decreases |universe| - |visited|, |current| + |next|
    {
      if current[0] == end {
        LevelFound(g, start, end, current, next, visited, level);
        return Some(level);
      }
      current, next, visited, level := LevelStep(g, start, end, universe, current, next, visited, level);
    }
    LevelExhausted(g, start, end, visited, level);
    return None;
  }

  /** The loop invariant of `bfs`, with the facts that bound its running time. */
  ghost predicate LevelState(g: Graph, start: Title, end: Title, universe: set<Title>, current: seq<Title>,
                             next: seq<Title>, visited: set<Title>, level: nat)
  {
    && universe == Universe(g, start)
    && (current == [] ==> next == [])
    && visited <= universe
    && |visited| <= |universe|
    && AllIn(current, universe) && AllIn(next, universe)
    && LevelInvariant(g, start, end, current, next, visited, level)
  }

  /**
   One turn of the `bfs` loop once the head of `current` is known not to be
   the target: take it, expand it unless it is marked, and start the next
   level when `current` runs dry. Either one more vertex is marked or one
   queued vertex fewer is left.
   */
  method LevelStep(g: Graph, start: Title, end: Title, ghost universe: set<Title>, current: seq<Title>,
                   next: seq<Title>, visited: set<Title>, level: nat)
    returns (current': seq<Title>, next': seq<Title>, visited': set<Title>, level': nat)
    requires LevelState(g, start, end, universe, current, next, visited, level)
    requires current != [] && current[0] != end
    ensures LevelState(g, start, end, universe, current', next', visited', level')
    ensures |visited'| > |visited| || (visited' == visited && |current'| + |next'| < |current| + |next|)
  {
    var v := current[0];
    current', next', visited', level' := current[1..], next, visited, level;
    var ns: seq<Title> := [];
    if v !in visited {
      visited' := visited + {v};
      ns := Neighbors(g, v);
      next' := next + ns;
    }
    LevelAdvance(g, start, end, universe, current, next, visited, level, ns, next', visited');
    if current' == [] {
      current', next' := next', [];
      level' := level + 1;
    }
  }

  /**
   The bookkeeping of one `bfs` turn: with `v` the head of `current`, marking
   it and queueing its neighbours when it was unmarked keeps the loop state,
   swapping in the next level when `current` runs dry.
   */
  lemma LevelAdvance(g: Graph, start: Title, end: Title, universe: set<Title>, current: seq<Title>,
                     next: seq<Title>, visited: set<Title>, level: nat,
                     ns: seq<Title>, next': seq<Title>, visited': set<Title>)
    requires LevelState(g, start, end, universe, current, next, visited, level)
    requires current != [] && current[0] != end
    requires visited' == visited + {current[0]}
    requires current[0] !in visited ==> forall w :: w in ns <==> (current[0], w) in g.edges
    requires next' == if current[0] in visited then next else next + ns
    ensures current[1..] != [] ==> LevelState(g, start, end, universe, current[1..], next', visited', level)
    ensures current[1..] == [] ==> LevelState(g, start, end, universe, next', [], visited', level + 1)
    ensures |visited'| > |visited| || (visited' == visited && |current[1..]| + |next'| < |current| + |next|)
  {
    var v := current[0];
    SubsetCardinality(visited', universe);
    if v !in visited {
      NeighborsInUniverse(g, start, v, ns);
    }
    assert AllIn(current[1..], universe) by {
      assert forall x :: x in current[1..] ==> x in current;
    }
    LevelTake(g, start, end, current, next, visited, level, ns, next', visited');
    if current[1..] == [] {
      LevelSwap(g, start, end, next', visited', level);
    }
  }

  /** Every element of `s` belongs to `u`. */
  ghost predicate AllIn(s: seq<Title>, u: set<Title>) {
    forall x :: x in s ==> x in u
  }

  lemma NeighborsInUniverse(g: Graph, start: Title, v: Title, ns: seq<Title>)
    requires forall w :: w in ns <==> (v, w) in g.edges
    ensures AllIn(ns, Universe(g, start))
  {
    forall w | w in ns ensures w in Universe(g, start) {
      EdgeTargetInUniverse(g, start, v, w);
    }
  }

  /** Taking the target off `current` means it is exactly `level` edges away. */
  lemma LevelFound(g: Graph, start: Title, end: Title, current: seq<Title>, next: seq<Title>,
                   visited: set<Title>, level: nat)
    requires LevelInvariant(g, start, end, current, next, visited, level)
    requires current != [] && current[0] == end
    ensures IsDistance(g, start, end, level)
    ensures start == end ==> level == 0
  {
    assert start in Layer(g, start, 0);
  }

  /** With both queues empty, the target is out of reach. */
  lemma LevelExhausted(g: Graph, start: Title, end: Title, visited: set<Title>, level: nat)
    requires LevelInvariant(g, start, end, [], [], visited, level)
    ensures !Reachable(g, start, end) && start != end
  {
    ClosedSetHoldsAllLayers(g, start, visited);
  }

  /** Once the queues are empty, the visited set holds everything reachable. */
  lemma ClosedSetHoldsAllLayers(g: Graph, s: Title, closed: set<Title>)
    requires s in closed
    requires forall u, w :: u in closed && (u, w) in g.edges ==> w in closed
    ensures forall x :: Reachable(g, s, x) ==> x in closed
  {
    forall x | Reachable(g, s, x) ensures x in closed {
      var k: nat :| x in Layer(g, s, k);
      ClosedSetHoldsLayers(g, s, closed, k);
    }
  }

  // ---------------------------------------------------------------------------
  // bfs_with_path
  // ---------------------------------------------------------------------------

  /** A queue entry of `bfs_with_path`: a vertex and the walk that reached it. */
  type Trail = (Title, seq<Title>)

  /** The vertices named by the queue entries. */
  function Vertices(queue: seq<Trail>): set<Title> {
    set e | e in queue :: e.0
  }

  /** The vertices of the entries whose walk has exactly `f` edges. */
  function Front(queue: seq<Trail>, f: nat): set<Title> {
    set e | e in queue && |e.1| == f + 1 :: e.0
  }

  /**
   An entry is a walk from `start` to its vertex with no repeated vertex, all of
   whose vertices but the last are already visited.
   */
  ghost predicate TrailOk(g: Graph, start: Title, universe: set<Title>, visited: set<Title>, e: Trail) {
    && |e.1| >= 1
    && e.1[0] == start
    && Last(e.1) == e.0
    && IsWalk(g, e.1)
    && Distinct(e.1)
    && AllIn(e.1, universe)
    && forall j :: 0 <= j < |e.1| - 1 ==> e.1[j] in visited
  }

  ghost predicate TrailsOk(g: Graph, start: Title, universe: set<Title>, visited: set<Title>, queue: seq<Trail>) {
    forall i :: 0 <= i < |queue| ==> TrailOk(g, start, universe, visited, queue[i])
  }

  /** The walks in the queue have `f` or `f + 1` edges, shorter ones first, and the head has `f`. */
  ghost predicate LengthsOk(queue: seq<Trail>, f: nat) {
    && (forall i :: 0 <= i < |queue| ==> |queue[i].1| == f + 1 || |queue[i].1| == f + 2)
    && (forall i, j :: 0 <= i < j < |queue| ==> |queue[i].1| <= |queue[j].1|)
    && (queue != [] ==> |queue[0].1| == f + 1)
  }

  /**
   What the path search knows at the head of its loop, with `f` the length of
   the walk at the head of the queue: entries are sound, the queue is sorted
   by walk length, everything leaving a visited vertex is visited or queued,
   the target is never marked, and an unmarked vertex is at least `f` edges
   away, exactly `f` only if an entry at the front of the queue names it.
   */
  ghost predicate PathInvariant(g: Graph, start: Title, end: Title, universe: set<Title>,
                                queue: seq<Trail>, visited: set<Title>, f: nat)
  {
    && TrailsOk(g, start, universe, visited, queue)
    && LengthsOk(queue, f)
    && (forall u, w :: u in visited && (u, w) in g.edges ==> w in visited || w in Vertices(queue))
    && (start in visited || start in Vertices(queue))
    && end !in visited
    && Settled(g, start, visited, f, Front(queue, f))
  }

  /** The entries the expansion of walk `path` appends for the neighbours `ns`. */
  function Extend(path: seq<Title>, ns: seq<Title>, visited: set<Title>): seq<Trail> {
    if ns == [] then []
    else
      var w := Last(ns);
      Extend(path, ns[..|ns| - 1], visited) + (if w !in visited then [(w, path + [w])] else [])
  }

  /**
   The expansion queues each unmarked neighbour with the walk extended by it,
   and nothing else.
   */
  lemma {:induction false} ExtendShape(path: seq<Title>, ns: seq<Title>, visited: set<Title>)
    ensures |Extend(path, ns, visited)| <= |ns|
    ensures forall e :: e in Extend(path, ns, visited) ==> e.1 == path + [e.0] && e.0 in ns && e.0 !in visited
    ensures forall w :: w in ns && w !in visited ==> w in Vertices(Extend(path, ns, visited))
    decreases |ns|
  {
    if ns != [] {
      var w := Last(ns);
      var front := ns[..|ns| - 1];
      ExtendShape(path, front, visited);
      assert forall x :: x in ns ==> x in front || x == w;
      var r := Extend(path, ns, visited);
      var l := Extend(path, front, visited);
      assert forall e :: e in r ==> e in l || e == (w, path + [w]);
      forall x | x in ns && x !in visited ensures x in Vertices(r) {
        if x in front {
          var e :| e in l && e.0 == x;
          assert e in r;
        } else {
          assert (w, path + [w]) in r;
        }
      }
    }
  }

  lemma VerticesAppend(a: seq<Trail>, b: seq<Trail>, f: nat)
    ensures Vertices(a + b) == Vertices(a) + Vertices(b)
    ensures Front(a + b, f) == Front(a, f) + Front(b, f)
  {
    assert forall e :: e in a + b <==> e in a || e in b;
  }

  lemma VerticesTail(queue: seq<Trail>, f: nat)
    requires queue != []
    ensures Vertices(queue) == {queue[0].0} + Vertices(queue[1..])
    ensures Front(queue, f) <= {queue[0].0} + Front(queue[1..], f)
  {
    assert forall e :: e in queue <==> e == queue[0] || e in queue[1..];
  }

  /** The new entries are sound once the expanded vertex is marked. */
  lemma ExtendTrailsOk(g: Graph, start: Title, universe: set<Title>, visited: set<Title>,
                        e: Trail, ns: seq<Title>, visited': set<Title>)
    requires TrailOk(g, start, universe, visited, e)
    requires universe == Universe(g, start)
    requires visited' == visited + {e.0}
    requires forall w :: w in ns <==> (e.0, w) in g.edges
    ensures TrailsOk(g, start, universe, visited', Extend(e.1, ns, visited'))
  {
    var ext := Extend(e.1, ns, visited');
    var p := e.1;
    ExtendShape(p, ns, visited');
    forall i | 0 <= i < |ext| ensures TrailOk(g, start, universe, visited', ext[i]) {
      var w := ext[i].0;
      var q := ext[i].1;
      assert ext[i] in ext;
      assert q == p + [w];
      EdgeTargetInUniverse(g, start, e.0, w);
      forall j: nat | j + 1 < |q| ensures Hop(g, q, j) {
        if j + 1 < |p| {
          assert q[j] == p[j] && q[j + 1] == p[j + 1];
          assert Hop(g, p, j);
        } else {
          assert q[j] == Last(p) == e.0 && q[j + 1] == w;
        }
      }
      forall j | 0 <= j < |p| ensures p[j] in visited' {
        if j < |p| - 1 { assert p[j] in visited; } else { assert p[j] == e.0; }
      }
      assert w !in p;
      assert Distinct(q) by {
        forall a, b | 0 <= a < b < |q| ensures q[a] != q[b] {
          if b < |p| { assert q[a] == p[a] && q[b] == p[b]; }
          else { assert q[a] == p[a] && q[b] == w; }
        }
      }
      assert AllIn(q, universe) by {
        forall x | x in q ensures x in universe {
          if x != w { assert x in p; }
        }
      }
      assert forall j :: 0 <= j < |q| - 1 ==> q[j] == p[j];
    }
  }

  /** Taking the head entry and appending its expansion keeps every entry sound. */
  lemma TakeKeepsEntries(g: Graph, start: Title, universe: set<Title>, visited: set<Title>,
                         queue: seq<Trail>, ns: seq<Title>, visited': set<Title>, queue': seq<Trail>)
    requires TrailsOk(g, start, universe, visited, queue)
    requires queue != []
    requires universe == Universe(g, start)
    requires visited' == visited + {queue[0].0}
    requires forall w :: w in ns <==> (queue[0].0, w) in g.edges
    requires queue' == queue[1..] + Extend(queue[0].1, ns, visited')
    ensures TrailsOk(g, start, universe, visited', queue')
  {
    assert TrailOk(g, start, universe, visited, queue[0]);
    ExtendTrailsOk(g, start, universe, visited, queue[0], ns, visited');
    var rest := queue[1..];
    var ext := Extend(queue[0].1, ns, visited');
    forall i | 0 <= i < |queue'| ensures TrailOk(g, start, universe, visited', queue'[i]) {
      if i < |rest| {
        assert queue'[i] == queue[i + 1];
        assert TrailOk(g, start, universe, visited, queue[i + 1]);
      } else {
        assert queue'[i] == ext[i - |rest|];
      }
    }
  }

  /** The same step keeps the queue sorted by walk length. */
  lemma TakeKeepsLengths(queue: seq<Trail>, ns: seq<Title>, visited': set<Title>, queue': seq<Trail>, f: nat)
    requires LengthsOk(queue, f)
    requires queue != []
    requires queue' == queue[1..] + Extend(queue[0].1, ns, visited')
    ensures forall i :: 0 <= i < |queue'| ==> |queue'[i].1| == f + 1 || |queue'[i].1| == f + 2
    ensures forall i, j :: 0 <= i < j < |queue'| ==> |queue'[i].1| <= |queue'[j].1|
    ensures Front(Extend(queue[0].1, ns, visited'), f) == {}
  {
    var rest := queue[1..];
    var ext := Extend(queue[0].1, ns, visited');
    ExtendShape(queue[0].1, ns, visited');
    assert forall i :: 0 <= i < |ext| ==> ext[i] in ext;
    forall i | 0 <= i < |queue'| ensures |queue'[i].1| == f + 1 || |queue'[i].1| == f + 2 {
      if i < |rest| { assert queue'[i] == queue[i + 1]; } else { assert queue'[i] == ext[i - |rest|]; }
    }
    forall i, j | 0 <= i < j < |queue'| ensures |queue'[i].1| <= |queue'[j].1| {
      if j < |rest| {
        assert queue'[i] == queue[i + 1] && queue'[j] == queue[j + 1];
      } else {
        assert queue'[j] == ext[j - |rest|];
      }
    }
    assert forall e :: e in ext ==> |e.1| == f + 2;
  }

  /** The same step keeps everything leaving a visited vertex visited or queued. */
  lemma TakeKeepsClosure(g: Graph, start: Title, queue: seq<Trail>, visited: set<Title>,
                         ns: seq<Title>, visited': set<Title>, queue': seq<Trail>)
    requires forall u, w :: u in visited && (u, w) in g.edges ==> w in visited || w in Vertices(queue)
    requires start in visited || start in Vertices(queue)
    requires queue != []
    requires visited' == visited + {queue[0].0}
    requires forall w :: w in ns <==> (queue[0].0, w) in g.edges
    requires queue' == queue[1..] + Extend(queue[0].1, ns, visited')
    ensures forall u, w :: u in visited' && (u, w) in g.edges ==> w in visited' || w in Vertices(queue')
    ensures start in visited' || start in Vertices(queue')
  {
    var f := 0;
    ExtendShape(queue[0].1, ns, visited');
    VerticesTail(queue, f);
    VerticesAppend(queue[1..], Extend(queue[0].1, ns, visited'), f);
  }

  /** The same step keeps the lower bound on unmarked vertices, before the front length moves on. */
  lemma TakeKeepsMinimal(g: Graph, start: Title, queue: seq<Trail>, visited: set<Title>,
                         ns: seq<Title>, visited': set<Title>, queue': seq<Trail>, f: nat)
    requires Settled(g, start, visited, f, Front(queue, f))
    requires queue != []
    requires visited' == visited + {queue[0].0}
    requires queue' == queue[1..] + Extend(queue[0].1, ns, visited')
    ensures Settled(g, start, visited', f, Front(queue', f))
  {
    VerticesTail(queue, f);
    VerticesAppend(queue[1..], Extend(queue[0].1, ns, visited'), f);
  }

  /**
   When no walk of `f` edges is left in the queue, every unmarked vertex is at
   least `f + 1` edges away, and those exactly `f + 1` away are queued.
   */
  lemma FrontMovesOn(g: Graph, start: Title, queue: seq<Trail>, visited: set<Title>, f: nat)
    requires forall u, w :: u in visited && (u, w) in g.edges ==> w in visited || w in Vertices(queue)
    requires Settled(g, start, visited, f, Front(queue, f))
    requires forall i :: 0 <= i < |queue| ==> |queue[i].1| == f + 2
    ensures Settled(g, start, visited, f + 1, Front(queue, f + 1))
  {
    assert Front(queue, f) == {};
    assert Vertices(queue) == Front(queue, f + 1) by {
      forall x | x in Vertices(queue) ensures x in Front(queue, f + 1) {
        var e :| e in queue && e.0 == x;
        var i :| 0 <= i < |queue| && queue[i] == e;
      }
    }
    forall x | x in Layer(g, start, f + 1) && x !in visited ensures x in Front(queue, f + 1) {
      var u := LayerPredecessor(g, start, f, x);
    }
  }

  /** One step of the path search keeps its invariant, with the front length moved on when needed. */
  lemma PathTake(g: Graph, start: Title, end: Title, universe: set<Title>, queue: seq<Trail>,
                 visited: set<Title>, f: nat, ns: seq<Title>, visited': set<Title>, queue': seq<Trail>)
    returns (f': nat)
    requires PathInvariant(g, start, end, universe, queue, visited, f)
    requires universe == Universe(g, start)
    requires queue != [] && queue[0].0 != end
    requires visited' == visited + {queue[0].0}
    requires forall w :: w in ns <==> (queue[0].0, w) in g.edges
    requires queue' == queue[1..] + Extend(queue[0].1, ns, visited')
    ensures f' == if queue' == [] || |queue'[0].1| != f + 1 then f + 1 else f
    ensures PathInvariant(g, start, end, universe, queue', visited', f')
  {
    TakeKeepsEntries(g, start, universe, visited, queue, ns, visited', queue');
    TakeKeepsLengths(queue, ns, visited', queue', f);
    TakeKeepsClosure(g, start, queue, visited, ns, visited', queue');
    TakeKeepsMinimal(g, start, queue, visited, ns, visited', queue', f);
    if queue' == [] || |queue'[0].1| != f + 1 {
      f' := f + 1;
      FrontMovesOn(g, start, queue', visited', f);
    } else {
      f' := f;
    }
  }

  /** Taking the target off the queue means its walk is a shortest path. */
  lemma PathFound(g: Graph, start: Title, end: Title, universe: set<Title>, queue: seq<Trail>,
                  visited: set<Title>, f: nat)
    requires PathInvariant(g, start, end, universe, queue, visited, f)
    requires queue != [] && queue[0].0 == end
    ensures IsShortestPath(g, start, end, queue[0].1) && Distinct(queue[0].1)
    ensures start == end ==> queue[0].1 == [start]
  {
    var p := queue[0].1;
    assert TrailOk(g, start, universe, visited, queue[0]);
    WalkEndsInLayer(g, p);
    assert start in Layer(g, start, 0);
  }

  // Termination: the front length moves on at most once per vertex, and while it
  // stays put every step takes one entry of that length off the queue.

  /** The number of entries whose walk has exactly `f` edges. */
  function FrontCount(queue: seq<Trail>, f: nat): nat {
    if queue == [] then 0
    else (if |queue[0].1| == f + 1 then 1 else 0) + FrontCount(queue[1..], f)
  }

  lemma {:induction false} FrontCountAppend(a: seq<Trail>, b: seq<Trail>, f: nat)
    ensures FrontCount(a + b, f) == FrontCount(a, f) + FrontCount(b, f)
  {
    if a != [] {
      assert (a + b)[1..] == a[1..] + b;
      FrontCountAppend(a[1..], b, f);
    } else {
      assert a + b == b;
    }
  }

  lemma {:induction false} FrontCountNone(queue: seq<Trail>, f: nat)
    requires forall i :: 0 <= i < |queue| ==> |queue[i].1| != f + 1
    ensures FrontCount(queue, f) == 0
  {
    if queue != [] {
      assert |queue[0].1| != f + 1;
      FrontCountNone(queue[1..], f);
    }
  }

  /**
   Taking the head entry and appending its expansion removes one walk of `f`
   edges and adds only longer ones. This is what makes the search stop
   although a vertex may be queued, and expanded, more than once.
   */
  lemma TakeShrinksFront(queue: seq<Trail>, ns: seq<Title>, visited': set<Title>, queue': seq<Trail>, f: nat)
    requires LengthsOk(queue, f)
    requires queue != []
    requires queue' == queue[1..] + Extend(queue[0].1, ns, visited')
    ensures FrontCount(queue', f) < FrontCount(queue, f)
  {
    var ext := Extend(queue[0].1, ns, visited');
    FrontCountAppend(queue[1..], ext, f);
    ExtendShape(queue[0].1, ns, visited');
    assert forall i :: 0 <= i < |ext| ==> ext[i] in ext;
    FrontCountNone(ext, f);
  }

  /** A walk without repeated vertices has at most as many vertices as the graph, so `f < n`. */
  lemma FrontBound(g: Graph, start: Title, universe: set<Title>, queue: seq<Trail>, visited: set<Title>, f: nat)
    requires TrailsOk(g, start, universe, visited, queue)
    requires LengthsOk(queue, f)
    requires queue != []
    ensures f + 1 <= |universe|
  {
    assert TrailOk(g, start, universe, visited, queue[0]);
    DistinctWithin(queue[0].1, universe);
  }

  lemma ExtendSnoc(path: seq<Title>, ns: seq<Title>, i: nat, visited: set<Title>)
    requires i < |ns|
    ensures Extend(path, ns[..i + 1], visited)
      == Extend(path, ns[..i], visited) + (if ns[i] !in visited then [(ns[i], path + [ns[i]])] else [])
  {
    assert ns[..i + 1][..i] == ns[..i];
  }

  /**
   The expansion loop of `bfs_with_path`: each neighbour not yet marked is
   queued with the walk extended by it, in neighbour order.
   */
  method EnqueueUnmarked(queue: seq<Trail>, path: seq<Title>, ns: seq<Title>, visited: set<Title>)
    returns (queue': seq<Trail>)
    ensures queue' == queue + Extend(path, ns, visited)
  {
    queue' := queue;
    var i := 0;
    while i < |ns|
      invariant 0 <= i <= |ns|
      invariant queue' == queue + Extend(path, ns[..i], visited)
    {
      ExtendSnoc(path, ns, i, visited);
      if ns[i] !in visited {
        queue' := queue' + [(ns[i], path + [ns[i]])];
      }
      i := i + 1;
    }
    assert ns[..i] == ns;
  }

  /**
   `bfs_with_path`: a first-in first-out search whose entries carry the walk so
   far. A vertex is marked when taken off the queue and every taken vertex is
   expanded, even when it was marked before; only neighbours not yet marked
   are queued.
   */
  method PathSearch(g: Graph, start: Title, end: Title) returns (r: Option<seq<Title>>)
    ensures r.Some? ==> IsShortestPath(g, start, end, r.value) && Distinct(r.value)
    ensures r.None? <==> !Reachable(g, start, end)
    ensures start == end ==> r == Some([start])
  {
    ghost var universe := Universe(g, start);
    var queue: seq<Trail> := [(start, [start])];
    var visited: set<Title> := {};
    ghost var front: nat := 0;
    assert TrailOk(g, start, universe, visited, queue[0]);
    assert Vertices(queue) == {start} && Front(queue, 0) == {start} by {
      assert forall e :: e in queue <==> e == (start, [start]);
    }
    while queue != []
      invariant PathInvariant(g, start, end, universe, queue, visited, front)
      invariant front <= |universe|
      decreases |universe| - front, FrontCount(queue, front)
    {
      ghost var (queue0, visited0) := (queue, visited);
      var (vertex, path) := queue[0];
      queue := queue[1..];
      if vertex == end {
        PathFound(g, start, end, universe, queue0, visited0, front);
        return Some(path);
      }
      visited := visited + {vertex};
      var ns := Neighbors(g, vertex);
      queue := EnqueueUnmarked(queue, path, ns, visited);
      FrontBound(g, start, universe, queue0, visited0, front);
      TakeShrinksFront(queue0, ns, visited, queue, front);
      front := PathTake(g, start, end, universe, queue0, visited0, front, ns, visited, queue);
    }
    ClosedSetHoldsAllLayers(g, start, visited);
    return None;
  }

  /** Both searches find the target or both miss it, and they agree on the number of hops. */
  method SearchesAgree(g: Graph, start: Title, end: Title) returns (d: Option<nat>, p: Option<seq<Title>>)
    ensures d.None? <==> p.None?
    ensures d.Some? ==> |p.value| == d.value + 1
  {
    d := LevelSearch(g, start, end);
    p := PathSearch(g, start, end);
    if d.Some? {
      DistanceUnique(g, start, end, d.value, |p.value| - 1);
    }
  }

  // ---------------------------------------------------------------------------
  // shortest_path
  // ---------------------------------------------------------------------------

  /**
   What `shortest_path` returns: `None` when a title is not a vertex, a text
   (a rendered path or the not-found message), or a bare hop count.
   */
  datatype Answer = NoTitle | Message(text: string) | HopCount(n: nat)

  const NOT_FOUND: string := "Path not found"

  /** The separator between titles of a rendered path. */
  function LinkChar(nonDirected: bool): string {
    if nonDirected then " -- " else " -> "
  }

  /** The titles of `path` with `sep` between neighbours, as Python's `sep.join(path)`. */
  function JoinTitles(path: seq<Title>, sep: string): string
    requires |path| >= 1
  {
    if |path| == 1 then path[0] else path[0] + sep + JoinTitles(path[1..], sep)
  }

  /** A rendered path: the joined titles, a line break, and the number of hops. */
  function Render(path: seq<Title>, sep: string): string
    requires |path| >= 1
  {
    JoinTitles(path, sep) + "\n" + Decimal(|path| - 1)
  }

  /** Each title of `ts` followed by `sep`: what the rendering loop has built after `ts`. */
  function Suffixed(ts: seq<Title>, sep: string): string {
    if ts == [] then [] else Suffixed(ts[..|ts| - 1], sep) + Last(ts) + sep
  }

  lemma {:induction false} SuffixedCons(t: Title, ts: seq<Title>, sep: string)
    ensures Suffixed([t] + ts, sep) == t + sep + Suffixed(ts, sep)
    decreases |ts|
  {
    if ts != [] {
      var front := ts[..|ts| - 1];
      assert ([t] + ts)[..|ts|] == [t] + front;
      SuffixedCons(t, front, sep);
    } else {
      assert [t] + ts == [t];
      assert [t][..0] == [];
    }
  }

  /** Joining with separators equals writing every title but the last followed by the separator. */
  lemma {:induction false} JoinIsSuffixed(path: seq<Title>, sep: string)
    requires |path| >= 1
    ensures JoinTitles(path, sep) == Suffixed(path[..|path| - 1], sep) + Last(path)
    decreases |path|
  {
    if |path| > 1 {
      var tail := path[1..];
      JoinIsSuffixed(tail, sep);
      assert path[..|path| - 1] == [path[0]] + tail[..|tail| - 1];
      SuffixedCons(path[0], tail[..|tail| - 1], sep);
    } else {
      assert path[..0] == [];
    }
  }

  /**
   The rendering loop of `shortest_path`: each title but the last followed by
   the separator, then the last title, a line break and `len(path) - 1`.
   */
  method RenderPath(path: seq<Title>, sep: string) returns (result: string)
    requires |path| >= 1
    ensures result == Render(path, sep)
  {
    result := "";
    var i := 0;
    while i < |path| - 1
      invariant 0 <= i <= |path| - 1
      invariant result == Suffixed(path[..i], sep)
    {
      assert path[..i + 1][..i] == path[..i];
      result := result + path[i] + sep;
      i := i + 1;
    }
    JoinIsSuffixed(path, sep);
    result := result + path[|path| - 1] + "\n" + Decimal(|path| - 1);
  }

  /**
   The hop count can be read back from a rendering: it is everything after
   the line break that follows the joined titles, and it holds no line break.
   */
  lemma RenderReadsBack(path: seq<Title>, sep: string)
    requires |path| >= 1
    ensures var r := Render(path, sep); var k := |JoinTitles(path, sep)|;
      && k < |r| && r[k] == '\n'
      && (forall j :: k < j < |r| ==> IsDigit(r[j]))
      && DecimalValue(r[k + 1..]) == |path| - 1
  {
    var r := Render(path, sep);
    var k := |JoinTitles(path, sep)|;
    assert r[k + 1..] == Decimal(|path| - 1);
    DecimalRoundTrip(|path| - 1);
  }

  /** A rendering is never the not-found message, which has no line break. */
  lemma RenderIsNotMessage(path: seq<Title>, sep: string)
    requires |path| >= 1
    ensures Render(path, sep) != NOT_FOUND
  {
    var k := |JoinTitles(path, sep)|;
    assert Render(path, sep)[k] == '\n';
    assert forall j :: 0 <= j < |NOT_FOUND| ==> NOT_FOUND[j] != '\n';
  }

  /**
   `shortest_path`: no answer when either title is not a vertex; with
   `viewPath`, the rendering of a shortest path or the not-found message;
   without it, the hop count, except that a count of 0 is falsy in Python and
   so comes back as the not-found message too.
   */
  method ShortestPath(g: Graph, start: Title, end: Title, viewPath: bool, nonDirected: bool) returns (a: Answer)
    ensures a == NoTitle <==> start !in g.vertices || end !in g.vertices
    ensures a.HopCount? <==> a != NoTitle && !viewPath && start != end && Reachable(g, start, end)
    ensures a.HopCount? ==> a.n > 0 && IsDistance(g, start, end, a.n)
    ensures a != NoTitle && !viewPath && !a.HopCount? ==> a == Message(NOT_FOUND)
    ensures a != NoTitle && viewPath ==> a.Message? && (a.text == NOT_FOUND <==> !Reachable(g, start, end))
    ensures a != NoTitle && viewPath && a.text != NOT_FOUND ==>
      exists p :: IsShortestPath(g, start, end, p) && Distinct(p) && a.text == Render(p, LinkChar(nonDirected))
  {
    if start !in g.vertices || end !in g.vertices {
      return NoTitle;
    }
    if viewPath {
      var path := PathSearch(g, start, end);
      if path.Some? {
        var text := RenderPath(path.value, LinkChar(nonDirected));
        RenderIsNotMessage(path.value, LinkChar(nonDirected));
        return Message(text);
      } else {
        return Message(NOT_FOUND);
      }
    } else {
      var d := LevelSearch(g, start, end);
      if d.Some? && d.value != 0 {
        return HopCount(d.value);
      } else {
        if d.Some? {
          assert start in Layer(g, start, 0);
        }
        return Message(NOT_FOUND);
      }
    }
  }

  /**
   The falsy-zero discrepancy as written: asked for the hop count from an
   article to itself, `shortest_path` reports the not-found message although
   the distance is 0, while with `view_path` it renders the one-title path.
   */
  method ZeroHopIsNotFound(g: Graph, s: Title, nonDirected: bool) returns (count: Answer, view: Answer)
    requires s in g.vertices
    ensures IsDistance(g, s, s, 0)
    ensures count == Message(NOT_FOUND)
    ensures view == Message(Render([s], LinkChar(nonDirected)))
  {
    assert s in Layer(g, s, 0);
    count := ShortestPath(g, s, s, false, nonDirected);
    view := ShortestPath(g, s, s, true, nonDirected);
    ghost var p :| IsShortestPath(g, s, s, p) && Distinct(p) && view.text == Render(p, LinkChar(nonDirected));
    assert |p| == 1 by {
      WalkEndsInLayer(g, p);
    }
    assert p == [s];
  }

  /**
   `shortest_path` with the hop count tested against `None` rather than for
   truth: without `view_path` every reachable target, the start included,
   gets its distance, and only an unreachable one the not-found message.
   */
  method ShortestPathIntended(g: Graph, start: Title, end: Title, viewPath: bool, nonDirected: bool)
    returns (a: Answer)
    ensures a == NoTitle <==> start !in g.vertices || end !in g.vertices
    ensures a.HopCount? <==> a != NoTitle && !viewPath && Reachable(g, start, end)
    ensures a.HopCount? ==> IsDistance(g, start, end, a.n)
    ensures a != NoTitle && !viewPath && !a.HopCount? ==> a == Message(NOT_FOUND)
    ensures a != NoTitle && viewPath ==> a.Message? && (a.text == NOT_FOUND <==> !Reachable(g, start, end))
    ensures a != NoTitle && viewPath && a.text != NOT_FOUND ==>
      exists p :: IsShortestPath(g, start, end, p) && Distinct(p) && a.text == Render(p, LinkChar(nonDirected))
  {
    if start !in g.vertices || end !in g.vertices || viewPath {
      a := ShortestPath(g, start, end, viewPath, nonDirected);
    } else {
      var d := LevelSearch(g, start, end);
      if d.Some? {
        a := HopCount(d.value);
      } else {
        a := Message(NOT_FOUND);
      }
    }
  }
}

=== FILE: pipeline.dfy ===
/**
 How the crawler's output feeds the renderer: the records the crawler
 produces always build a size table, since every record after the first is
 for a title an earlier record references.
 */
module Pipeline {
  import opened WikiData
  import LinkFilter
  import Crawler
  import SizeTable

  /** A reference of any record is among all references. */
  lemma {:induction false} ReferenceInAllRefs(data: seq<Record>, j: nat, t: Title)
    requires j < |data| && t in data[j].references
    ensures t in SizeTable.AllRefs(data)
    decreases |data|
  {
    var front := data[..|data| - 1];
    if j < |front| {
      assert front[j] == data[j];
      ReferenceInAllRefs(front, j, t);
    }
  }

  /** Records in crawl order never make the renderer look up a missing title. */
  lemma LinkedEarlierIsPlaced(data: seq<Record>)
    requires Crawler.LinkedEarlier(data)
    ensures SizeTable.Placed(data)
  {
    forall i | 0 < i < |data| ensures SizeTable.PlacedAt(data, i) {
      assert Crawler.Linked(data[..i], data[i].title);
      var j :| 0 <= j < i && data[i].title in data[..i][j].references;
      ReferenceInAllRefs(data[..i], j, data[i].title);
    }
  }

  /**
   The crawl's records build a size table, and that table has a key for the
   seed and for every reference, sized by its number of occurrences.
   */
  lemma CrawlRenders(data: seq<Record>)
    requires Crawler.LinkedEarlier(data)
    ensures SizeTable.Build(data).Some?
    ensures SizeTable.Describes(SizeTable.Build(data).value, data)
  {
    LinkedEarlierIsPlaced(data);
    SizeTable.BuildSome(data);
    SizeTable.BuildDescribes(data);
  }

  /** The driver end to end: whatever the fetched pages, the records it collects render. */
  method CrawlAndRender(seed: Title, maxDepth: nat, maxArticles: nat, fetch: Title -> LinkFilter.Page)
    returns (data: seq<Record>, table: SizeTable.Table)
    ensures SizeTable.Build(data) == Some(table)
    ensures data != [] ==> data[0].title == seed && seed in table
    ensures |data| <= maxArticles + 1
  {
    var c, rounds := Crawler.Crawl(seed, maxDepth, maxArticles, fetch);
    Crawler.ValidSizes(c);
    data := c.data;
    CrawlRenders(data);
    table := SizeTable.Build(data).value;
  }
}

=== FILE: query_graph.dfy ===
/**
 The query graph rebuilt from persisted node records (`GraphFromWiki` in
 shortest_path.py): a vertex set and an edge set, directed or not, the
 neighbour lookup, and the walk/distance vocabulary the searches are
 proved against.
 */
module QueryGraph {
  import opened WikiData

  datatype Graph = Graph(vertices: set<Title>, edges: set<(Title, Title)>)

  /** Every title and every reference named by some record. */
  ghost function Mentioned(data: seq<Record>): set<Title> {
    (set i | 0 <= i < |data| :: data[i].title)
    + (set i, j | 0 <= i < |data| && 0 <= j < |data[i].references| :: data[i].references[j])
  }

  /** One `(title, reference)` pair per reference of every record. */
  ghost function Links(data: seq<Record>): set<(Title, Title)> {
    set i, j | 0 <= i < |data| && 0 <= j < |data[i].references| :: (data[i].title, data[i].references[j])
  }

  ghost function Reversed(es: set<(Title, Title)>): set<(Title, Title)> {
    set e | e in es :: (e.1, e.0)
  }

  /** The inner loop of the constructor: one record's references. */
  function AddReferences(g: Graph, title: Title, refs: seq<Title>, nonDirected: bool): (r: Graph)
    ensures r.vertices == g.vertices + Members(refs)
    ensures r.edges == g.edges + (set x | x in refs :: (title, x))
      + (if nonDirected then (set x | x in refs :: (x, title)) else {})
    decreases |refs|
  {
    if refs == [] then g
    else
      var ref := refs[0];
      var es := g.edges + {(title, ref)};
      var g' := Graph(g.vertices + {ref}, if nonDirected then es + {(ref, title)} else es);
      assert Members(refs) == {ref} + Members(refs[1..]);
      AddReferences(g', title, refs[1..], nonDirected)
  }

  /** The outer loop body of the constructor: one record. */
  function AddRecord(g: Graph, item: Record, nonDirected: bool): Graph {
    AddReferences(Graph(g.vertices + {item.title}, g.edges), item.title, item.references, nonDirected)
  }

  /** `GraphFromWiki.__init__`: fold the records into a vertex set and an edge set. */
  function Build(data: seq<Record>, nonDirected: bool): (g: Graph)
    ensures g.vertices == Mentioned(data)
    ensures g.edges == Links(data) + (if nonDirected then Reversed(Links(data)) else {})
    decreases |data|
  {
    if data == [] then Graph({}, {})
    else
      var n := |data| - 1;
      MentionedSnoc(data);
      LinksSnoc(data);
      AddRecord(Build(data[..n], nonDirected), data[n], nonDirected)
  }

  lemma MentionedSnoc(data: seq<Record>)
    requires |data| > 0
    ensures Mentioned(data) == Mentioned(data[..|data| - 1]) + {Last(data).title}
      + Members(Last(data).references)
  {
    var n := |data| - 1;
    var front := data[..n];
    forall x | x in Mentioned(data)
      ensures x in Mentioned(front) + {Last(data).title} + Members(Last(data).references)
    {
      if x in (set i | 0 <= i < |data| :: data[i].title) {
        var i :| 0 <= i < |data| && data[i].title == x;
        if i < n { assert front[i] == data[i]; }
      } else {
        var i, j :| 0 <= i < |data| && 0 <= j < |data[i].references| && data[i].references[j] == x;
        if i < n { assert front[i] == data[i]; }
      }
    }
    forall x | x in Mentioned(front) ensures x in Mentioned(data) {
      if x in (set i | 0 <= i < |front| :: front[i].title) {
        var i :| 0 <= i < |front| && front[i].title == x;
        assert data[i] == front[i];
      } else {
        var i, j :| 0 <= i < |front| && 0 <= j < |front[i].references| && front[i].references[j] == x;
        assert data[i] == front[i];
      }
    }
    forall x | x in Last(data).references ensures x in Mentioned(data) {
      var j :| 0 <= j < |data[n].references| && data[n].references[j] == x;
    }
  }

  lemma LinksSnoc(data: seq<Record>)
    requires |data| > 0
    ensures Links(data) == Links(data[..|data| - 1])
      + (set x | x in Last(data).references :: (Last(data).title, x))
    ensures Reversed(Links(data)) == Reversed(Links(data[..|data| - 1]))
      + (set x | x in Last(data).references :: (x, Last(data).title))
  {
    var n := |data| - 1;
    var front := data[..n];
    var tail := set x | x in Last(data).references :: (Last(data).title, x);
    forall e | e in Links(data) ensures e in Links(front) + tail {
      var i, j :| 0 <= i < |data| && 0 <= j < |data[i].references| && e == (data[i].title, data[i].references[j]);
      if i < n {
        assert front[i] == data[i];
      } else {
        assert data[i].references[j] in Last(data).references;
      }
    }
    forall e | e in Links(front) ensures e in Links(data) {
      var i, j :| 0 <= i < |front| && 0 <= j < |front[i].references| && e == (front[i].title, front[i].references[j]);
      assert data[i] == front[i];
    }
    forall e | e in tail ensures e in Links(data) {
      var j :| 0 <= j < |data[n].references| && e == (data[n].title, data[n].references[j]);
    }
    assert Links(data) == Links(front) + tail;
  }

  /** Both endpoints of every edge are vertices. */
  ghost predicate EndpointsAreVertices(g: Graph) {
    forall e :: e in g.edges ==> e.0 in g.vertices && e.1 in g.vertices
  }

  ghost predicate Symmetric(g: Graph) {
    forall a, b :: (a, b) in g.edges ==> (b, a) in g.edges
  }

  /**
   The constructor keeps its graph closed, makes every reference an edge, and in
   non-directed mode adds every reverse edge; in directed mode the edges are
   exactly the record links.
   */
  lemma BuildShape(data: seq<Record>, nonDirected: bool)
    ensures EndpointsAreVertices(Build(data, nonDirected))
    ensures forall i, j :: 0 <= i < |data| && 0 <= j < |data[i].references| ==>
      (data[i].title, data[i].references[j]) in Build(data, nonDirected).edges
    ensures nonDirected ==> Symmetric(Build(data, nonDirected))
    ensures !nonDirected ==> Build(data, nonDirected).edges == Links(data)
  {
    var g := Build(data, nonDirected);
    forall e | e in g.edges ensures e.0 in g.vertices && e.1 in g.vertices {
      if e in Links(data) {
        var i, j :| 0 <= i < |data| && 0 <= j < |data[i].references| && e == (data[i].title, data[i].references[j]);
      } else {
        var f :| f in Links(data) && e == (f.1, f.0);
        var i, j :| 0 <= i < |data| && 0 <= j < |data[i].references| && f == (data[i].title, data[i].references[j]);
      }
    }
    if nonDirected {
      forall a, b | (a, b) in g.edges ensures (b, a) in g.edges {
        if (a, b) in Links(data) {
          assert (b, a) in Reversed(Links(data));
        } else {
          var f :| f in Links(data) && (a, b) == (f.1, f.0);
        }
      }
    }
  }

  /**
   `neighbors(v)`: the targets of the edges leaving `v`. The source walks a
   Python set, so the order is left open: the loop picks the next edge freely.
   */
  method Neighbors(g: Graph, v: Title) returns (ns: seq<Title>)
    ensures forall w :: w in ns <==> (v, w) in g.edges
    ensures Distinct(ns)
  {
    ns := [];
    var rest := g.edges;
    while rest != {}
      invariant rest <= g.edges
      invariant forall w :: w in ns <==> (v, w) in g.edges && (v, w) !in rest
      invariant Distinct(ns)
      decreases rest
    {
      var e :| e in rest;
      if e.0 == v {
        ns := ns + [e.1];
      }
      rest := rest - {e};
    }
  }

  /** The vertices at the end of some walk of exactly `k` edges from `s`. */
  function Layer(g: Graph, s: Title, k: nat): set<Title> {
    if k == 0 then {s} else set e | e in g.edges && e.0 in Layer(g, s, k - 1) :: e.1
  }

  /** An edge joins entries `i` and `i + 1` of `p`. */
  ghost predicate Hop(g: Graph, p: seq<Title>, i: nat) {
    i + 1 < |p| && (p[i], p[i + 1]) in g.edges
  }

  /** `p` is a walk: consecutive entries are joined by edges. */
  ghost predicate IsWalk(g: Graph, p: seq<Title>) {
    |p| >= 1 && forall i: nat :: i + 1 < |p| ==> Hop(g, p, i)
  }

  ghost predicate Reachable(g: Graph, s: Title, x: Title) {
    exists k: nat :: x in Layer(g, s, k)
  }

  /** `d` is the least number of edges on any walk from `s` to `x`. */
  ghost predicate IsDistance(g: Graph, s: Title, x: Title, d: nat) {
    x in Layer(g, s, d) && forall k: nat :: k < d ==> x !in Layer(g, s, k)
  }

  /** A minimum-length walk from `s` to `x`. */
  ghost predicate IsShortestPath(g: Graph, s: Title, x: Title, p: seq<Title>) {
    IsWalk(g, p) && p[0] == s && Last(p) == x && IsDistance(g, s, x, |p| - 1)
  }

  /** Every vertex of the universe a search from `s` can touch. */
  function Universe(g: Graph, s: Title): set<Title> {
    {s} + set e | e in g.edges :: e.1
  }

  lemma EdgeTargetInUniverse(g: Graph, s: Title, u: Title, w: Title)
    requires (u, w) in g.edges
    ensures w in Universe(g, s)
  {
    var e := (u, w);
    assert e in g.edges;
  }

  lemma LayerStep(g: Graph, s: Title, k: nat, u: Title, x: Title)
    requires u in Layer(g, s, k) && (u, x) in g.edges
    ensures x in Layer(g, s, k + 1)
  {
    var e := (u, x);
    assert e in g.edges && e.0 in Layer(g, s, k);
  }

  lemma LayerPredecessor(g: Graph, s: Title, k: nat, x: Title) returns (u: Title)
    requires x in Layer(g, s, k + 1)
    ensures u in Layer(g, s, k) && (u, x) in g.edges
  {
    var e :| e in g.edges && e.0 in Layer(g, s, k) && e.1 == x;
    u := e.0;
  }

  lemma LayerInUniverse(g: Graph, s: Title, k: nat, x: Title)
    requires x in Layer(g, s, k)
    ensures x in Universe(g, s)
  {
    if k > 0 {
      var u := LayerPredecessor(g, s, k - 1, x);
    }
  }

  /** The end of a walk of `n` edges lies in layer `n`. */
  lemma {:induction false} WalkEndsInLayer(g: Graph, p: seq<Title>)
    requires IsWalk(g, p)
    ensures Last(p) in Layer(g, p[0], |p| - 1)
    decreases |p|
  {
    if |p| > 1 {
      var front := p[..|p| - 1];
      assert IsWalk(g, front) by {
        forall i: nat | i + 1 < |front| ensures Hop(g, front, i) {
          assert front[i] == p[i] && front[i + 1] == p[i + 1];
          assert Hop(g, p, i);
        }
      }
      WalkEndsInLayer(g, front);
      assert Hop(g, p, |p| - 2);
      LayerStep(g, p[0], |p| - 2, Last(front), Last(p));
    }
  }

  /** Conversely, every vertex in layer `k` ends some walk of `k` edges. */
  lemma {:induction false} LayerHasWalk(g: Graph, s: Title, k: nat, x: Title) returns (p: seq<Title>)
    requires x in Layer(g, s, k)
    ensures IsWalk(g, p) && p[0] == s && Last(p) == x && |p| == k + 1
  {
    if k == 0 {
      p := [s];
    } else {
      var u := LayerPredecessor(g, s, k - 1, x);
      var q := LayerHasWalk(g, s, k - 1, u);
      p := q + [x];
      forall i: nat | i + 1 < |p| ensures Hop(g, p, i) {
        if i + 1 < |q| {
          assert p[i] == q[i] && p[i + 1] == q[i + 1];
          assert Hop(g, q, i);
        }
      }
    }
  }

  /** The distance is a lower bound on every walk and is attained by one. */
  lemma DistanceIsShortest(g: Graph, s: Title, x: Title, d: nat) returns (best: seq<Title>)
    requires IsDistance(g, s, x, d)
    ensures IsShortestPath(g, s, x, best) && |best| == d + 1
    ensures forall p :: IsWalk(g, p) && p[0] == s && Last(p) == x ==> |p| - 1 >= d
  {
    best := LayerHasWalk(g, s, d, x);
    forall p | IsWalk(g, p) && p[0] == s && Last(p) == x ensures |p| - 1 >= d {
      WalkEndsInLayer(g, p);
    }
  }

  /** The distance between two vertices is unique. */
  lemma DistanceUnique(g: Graph, s: Title, x: Title, d1: nat, d2: nat)
    requires IsDistance(g, s, x, d1) && IsDistance(g, s, x, d2)
    ensures d1 == d2
  {
  }

  /** A shortest walk never repeats a vertex. */
  lemma {:induction false} ShortestPathIsSimple(g: Graph, s: Title, x: Title, p: seq<Title>)
    requires IsShortestPath(g, s, x, p)
    ensures Distinct(p)
  {
    if !Distinct(p) {
      var i, j :| 0 <= i < j < |p| && p[i] == p[j];
      var q := p[..i] + p[j..];
      assert |q| == |p| - (j - i);
      forall k: nat | k + 1 < |q| ensures Hop(g, q, k) {
        if k + 1 < i {
          assert q[k] == p[k] && q[k + 1] == p[k + 1];
          assert Hop(g, p, k);
        } else if k + 1 == i {
          assert q[k] == p[k] && q[k + 1] == p[j] == p[i];
          assert Hop(g, p, k);
        } else {
          assert q[k] == p[k + j - i] && q[k + 1] == p[k + 1 + j - i];
          assert Hop(g, p, k + j - i);
        }
      }
      assert q[0] == s by {
        if i == 0 { assert q[0] == p[j] == p[0]; } else { assert q[0] == p[0]; }
      }
      assert Last(q) == x;
      WalkEndsInLayer(g, q);
      assert false;
    }
  }

  /** A set that contains `s` and is closed under edges contains every layer from `s`. */
  lemma {:induction false} ClosedSetHoldsLayers(g: Graph, s: Title, closed: set<Title>, k: nat)
    requires s in closed
    requires forall u, w :: u in closed && (u, w) in g.edges ==> w in closed
    ensures Layer(g, s, k) <= closed
  {
    if k > 0 {
      ClosedSetHoldsLayers(g, s, closed, k - 1);
      forall x | x in Layer(g, s, k) ensures x in closed {
        var u := LayerPredecessor(g, s, k - 1, x);
      }
    }
  }
}

=== FILE: size_table.dfy ===
/**
 The node table of the graph renderer (`RenderWikiGraph.__init__`,
 render_graph.py): for every title it records a display size and the
 references of the records carrying that title. The first record's title
 starts at one size step. A reference starts at two steps the first time it is
 seen and gains a step each later time. Appending a reference to its record's
 entry needs the record's title to be a key already; otherwise the dictionary
 lookup raises `KeyError`, modelled here as `None`.
 */
module SizeTable {
  import opened WikiData

  const SIZE_STEP: nat := 3

  /** A node of the table: its display size and the references recorded under its title. */
  datatype Entry = Entry(size: nat, references: seq<Title>)

  type Table = map<Title, Entry>

  /**
   One reference `ref` of the record titled `title`: grow or create the
   reference's entry, then append it to the record's entry, which must exist.
   */
  function AddRef(t: Table, title: Title, ref: Title): (r: Option<Table>)
    ensures r.Some? <==> title in t || title == ref
    ensures r.Some? ==> r.value.Keys == t.Keys + {ref}
  {
    var t1 := Count(t, ref);
    if title in t1 then Some(t1[title := t1[title].(references := t1[title].references + [ref])])
    else None
  }

  /** The size update for one occurrence of `ref`: a step more, or a new entry at two steps. */
  function Count(t: Table, ref: Title): (t1: Table)
    ensures t1.Keys == t.Keys + {ref}
    ensures forall k :: k in t && k != ref ==> t1[k] == t[k]
    ensures t1[ref].size == (if ref in t then t[ref].size else SIZE_STEP) + SIZE_STEP
    ensures t1[ref].references == if ref in t then t[ref].references else []
  {
    if ref in t then t[ref := t[ref].(size := t[ref].size + SIZE_STEP)]
    else t[ref := Entry(2 * SIZE_STEP, [])]
  }

  /** The references of one record, in order; the first failing lookup ends the table. */
  function AddRefs(t: Table, title: Title, refs: seq<Title>): Option<Table> {
    if refs == [] then Some(t)
    else match AddRefs(t, title, refs[..|refs| - 1])
      case None => None
      case Some(t1) => AddRef(t1, title, Last(refs))
  }

  /** One record: an empty table first gets the record's title at one step, then its references follow. */
  function AddItem(t: Table, item: Record): Option<Table> {
    var t0 := if t == map[] then t[item.title := Entry(SIZE_STEP, [])] else t;
    AddRefs(t0, item.title, item.references)
  }

  /** The table built from the records, in order; `None` when a lookup fails. */
  function Build(data: seq<Record>): Option<Table> {
    if data == [] then Some(map[])
    else match Build(data[..|data| - 1])
      case None => None
      case Some(t) => AddItem(t, Last(data))
  }

  // ---------------------------------------------------------------------------
  // What the table holds, stated over the records
  // ---------------------------------------------------------------------------

  /** All references of all records, in record order. */
  function AllRefs(data: seq<Record>): seq<Title> {
    if data == [] then [] else AllRefs(data[..|data| - 1]) + Last(data).references
  }

  /** The references of the records titled `k`, in record order. */
  function RefsOf(data: seq<Record>, k: Title): seq<Title> {
    if data == [] then []
    else RefsOf(data[..|data| - 1], k) + (if Last(data).title == k then Last(data).references else [])
  }

  /** The titles the table has keys for: the first record's title and every reference. */
  function Known(data: seq<Record>): set<Title> {
    if data == [] then {} else {data[0].title} + Members(AllRefs(data))
  }

  /**
   `t` is the table of `data`: its keys are the known titles; a key's size is
   one step more than a step per occurrence as a reference; its references
   are those of the records carrying it, and a title without a key has none.
   */
  ghost predicate Describes(t: Table, data: seq<Record>) {
    t.Keys == Known(data) && EntriesCount(t, data) && NoStrayRefs(t, data)
  }

  /** Each key's size and references, as the records give them. */
  ghost predicate EntriesCount(t: Table, data: seq<Record>) {
    forall k {:trigger t[k]} :: k in t ==>
      t[k].size == SIZE_STEP * (1 + multiset(AllRefs(data))[k]) && t[k].references == RefsOf(data, k)
  }

  /** No record carries references under a title that is not a key. */
  ghost predicate NoStrayRefs(t: Table, data: seq<Record>) {
    forall k {:trigger RefsOf(data, k)} :: k !in t ==> RefsOf(data, k) == []
  }

  /**
   No lookup fails: every record after the first that has references is for
   a title that is already a key, or is its own first reference.
   */
  ghost predicate Placed(data: seq<Record>) {
    forall i :: 0 < i < |data| ==> PlacedAt(data, i)
  }

  /** The lookups for the record at position `i` succeed. */
  ghost predicate PlacedAt(data: seq<Record>, i: nat)
    requires i < |data|
  {
    data[i].references != [] ==> data[i].title in Known(data[..i]) + {data[i].references[0]}
  }

  /** One more reference in the last record adds one occurrence and one known title. */
  lemma SnocRecord(front: seq<Record>, title: Title, rs: seq<Title>, x: Title)
    ensures var d := front + [Record(title, rs)];
      var d' := front + [Record(title, rs + [x])];
      && AllRefs(d') == AllRefs(d) + [x]
      && Known(d') == Known(d) + {x}
  {
    var d := front + [Record(title, rs)];
    var d' := front + [Record(title, rs + [x])];
    assert d[..|d| - 1] == front && d'[..|d'| - 1] == front;
    assert AllRefs(d') == AllRefs(d) + [x];
    MembersSnoc(AllRefs(d), x);
    assert d[0].title == d'[0].title;
  }

  /** One more reference in the last record, seen from one title. */
  lemma SnocRecordAt(front: seq<Record>, title: Title, rs: seq<Title>, x: Title, k: Title)
    ensures var d := front + [Record(title, rs)];
      var d' := front + [Record(title, rs + [x])];
      && RefsOf(d', k) == RefsOf(d, k) + (if k == title then [x] else [])
      && multiset(AllRefs(d'))[k] == multiset(AllRefs(d))[k] + (if k == x then 1 else 0)
  {
    var d := front + [Record(title, rs)];
    var d' := front + [Record(title, rs + [x])];
    assert d[..|d| - 1] == front && d'[..|d'| - 1] == front;
    assert AllRefs(d') == AllRefs(d) + [x];
  }

  /** One reference keeps the description, one reference further into the last record. */
  lemma AddRefDescribes(t: Table, front: seq<Record>, title: Title, rs: seq<Title>, x: Title)
    requires Describes(t, front + [Record(title, rs)])
    requires AddRef(t, title, x).Some?
    ensures Describes(AddRef(t, title, x).value, front + [Record(title, rs + [x])])
  {
    AddRefKeys(t, front, title, rs, x);
    AddRefEntries(t, front, title, rs, x);
    AddRefStray(t, front, title, rs, x);
  }

  /** The keys after one reference are the known titles. */
  lemma AddRefKeys(t: Table, front: seq<Record>, title: Title, rs: seq<Title>, x: Title)
    requires Describes(t, front + [Record(title, rs)])
    requires AddRef(t, title, x).Some?
    ensures AddRef(t, title, x).value.Keys == Known(front + [Record(title, rs + [x])])
  {
    SnocRecord(front, title, rs, x);
  }

  /** Every key's entry after one reference. */
  lemma AddRefEntries(t: Table, front: seq<Record>, title: Title, rs: seq<Title>, x: Title)
    requires Describes(t, front + [Record(title, rs)])
    requires AddRef(t, title, x).Some?
    ensures EntriesCount(AddRef(t, title, x).value, front + [Record(title, rs + [x])])
  {
    var d := front + [Record(title, rs)];
    var d' := front + [Record(title, rs + [x])];
    forall k | k in AddRef(t, title, x).value
      ensures AddRef(t, title, x).value[k].size == SIZE_STEP * (1 + multiset(AllRefs(d'))[k])
      ensures AddRef(t, title, x).value[k].references == RefsOf(d', k)
    {
      SnocRecordAt(front, title, rs, x, k);
      DescribedKey(t, d, k);
      AddRefKey(t, title, x, k, multiset(AllRefs(d))[k], multiset(AllRefs(d'))[k], RefsOf(d, k), RefsOf(d', k));
    }
  }

  /** A title that is still not a key has no references recorded under it. */
  lemma AddRefStray(t: Table, front: seq<Record>, title: Title, rs: seq<Title>, x: Title)
    requires Describes(t, front + [Record(title, rs)])
    requires AddRef(t, title, x).Some?
    ensures NoStrayRefs(AddRef(t, title, x).value, front + [Record(title, rs + [x])])
  {
    var d := front + [Record(title, rs)];
    var d' := front + [Record(title, rs + [x])];
    forall k | k !in AddRef(t, title, x).value ensures RefsOf(d', k) == [] {
      SnocRecordAt(front, title, rs, x, k);
      assert k != title && k !in t;
      assert RefsOf(d', k) == RefsOf(d, k) + [];
    }
  }

  /** What a description says about one title, key or not. */
  lemma DescribedKey(t: Table, data: seq<Record>, k: Title)
    requires Describes(t, data)
    ensures k in t ==> t[k].size == SIZE_STEP * (1 + multiset(AllRefs(data))[k]) && t[k].references == RefsOf(data, k)
    ensures k !in t ==> multiset(AllRefs(data))[k] == 0 && RefsOf(data, k) == []
  {
    if k !in t {
      assert k !in Members(AllRefs(data));
    }
  }

  /** The entry of one key after one reference, given how often it occurred and its references before. */
  lemma AddRefKey(t: Table, title: Title, x: Title, k: Title, n: nat, n': nat, r: seq<Title>, r': seq<Title>)
    requires AddRef(t, title, x).Some?
    requires k in AddRef(t, title, x).value
    requires k in t ==> t[k].size == SIZE_STEP * (1 + n) && t[k].references == r
    requires k !in t ==> n == 0 && r == []
    requires n' == n + (if k == x then 1 else 0)
    requires r' == r + (if k == title then [x] else [])
    ensures AddRef(t, title, x).value[k].size == SIZE_STEP * (1 + n')
    ensures AddRef(t, title, x).value[k].references == r'
  {
    AddRefEntry(t, title, x, k);
    if k !in t {
      assert r + [] == r;
    }
  }

  /**
   The entry of a key after one reference: the reference's own entry grows by
   a step, or starts at two steps; the record's entry gains the reference;
   every other entry is as before.
   */
  lemma AddRefEntry(t: Table, title: Title, x: Title, k: Title)
    requires AddRef(t, title, x).Some?
    requires k in AddRef(t, title, x).value
    ensures k in t || k == x
    ensures AddRef(t, title, x).value[k].size
      == (if k in t then t[k].size else SIZE_STEP) + (if k == x then SIZE_STEP else 0)
    ensures AddRef(t, title, x).value[k].references
      == (if k in t then t[k].references else []) + (if k == title then [x] else [])
  {
    var t1 := Count(t, x);
    if k != x {
      assert t1[k] == t[k];
    }
  }

  /**
   The references of one record go through exactly when there are none, the
   title is already a key, or the title is its own first reference; then the
   keys gain every reference.
   */
  lemma {:induction false} AddRefsKeys(t: Table, title: Title, refs: seq<Title>)
    ensures AddRefs(t, title, refs).Some? <==> refs == [] || title in t || title == refs[0]
    ensures AddRefs(t, title, refs).Some? ==> AddRefs(t, title, refs).value.Keys == t.Keys + Members(refs)
    decreases |refs|
  {
    if refs != [] {
      var p := refs[..|refs| - 1];
      AddRefsKeys(t, title, p);
      MembersFront(refs);
      if p == [] {
        assert AddRefs(t, title, p) == Some(t);
        assert Members(refs) == {refs[0]};
      } else {
        assert p[0] == refs[0];
        assert refs[0] in Members(p);
      }
    }
  }

  /** The references of one record keep the description, record by record. */
  lemma {:induction false} AddRefsDescribes(t: Table, front: seq<Record>, title: Title, rs: seq<Title>, refs: seq<Title>)
    requires Describes(t, front + [Record(title, rs)])
    requires AddRefs(t, title, refs).Some?
    ensures Describes(AddRefs(t, title, refs).value, front + [Record(title, rs + refs)])
    decreases |refs|
  {
    if refs == [] {
      ConcatNil(rs, refs);
    } else {
      var p := refs[..|refs| - 1];
      AddRefsDescribes(t, front, title, rs, p);
      var t1 := AddRefs(t, title, p).value;
      AddRefDescribes(t1, front, title, rs + p, Last(refs));
      ConcatSnoc(rs, refs);
    }
  }

  /** A record without references changes nothing the table describes. */
  lemma EmptyRecord(t: Table, data: seq<Record>, title: Title)
    requires data != []
    requires Describes(t, data)
    ensures Describes(t, data + [Record(title, [])])
  {
    var d := data + [Record(title, [])];
    assert d[..|d| - 1] == data;
    assert AllRefs(d) == AllRefs(data);
    forall k ensures RefsOf(d, k) == RefsOf(data, k) {
      assert RefsOf(d, k) == RefsOf(data, k) + [];
    }
  }

  /** One record keeps the description. */
  lemma AddItemDescribes(t: Table, data: seq<Record>, item: Record)
    requires Describes(t, data)
    requires AddItem(t, item).Some?
    ensures Describes(AddItem(t, item).value, data + [item])
  {
    if data == [] {
      assert t == map[];
      FirstRecord(item.title);
      NilConcat(data, [Record(item.title, [])]);
      AddRefsDescribes(map[item.title := Entry(SIZE_STEP, [])], data, item.title, [], item.references);
      NilConcat([], item.references);
    } else {
      assert data[0].title in t;
      EmptyRecord(t, data, item.title);
      AddRefsDescribes(t, data, item.title, [], item.references);
      NilConcat([], item.references);
    }
  }

  /** The first record's title alone, at one step. */
  lemma FirstRecord(title: Title)
    ensures Describes(map[title := Entry(SIZE_STEP, [])], [Record(title, [])])
  {
    var d := [Record(title, [])];
    assert d[..0] == [];
    assert AllRefs(d) == [];
    assert Members(AllRefs(d)) == {};
  }

  /**
   One record goes through exactly when it has no references, it is the
   first record, its title is already known, or the title is its own first
   reference.
   */
  lemma AddItemSome(t: Table, data: seq<Record>, item: Record)
    requires Describes(t, data)
    ensures AddItem(t, item).Some? <==>
      item.references == [] || data == [] || item.title in Known(data) || item.title == item.references[0]
  {
    if data == [] {
      assert t == map[];
      AddRefsKeys(t[item.title := Entry(SIZE_STEP, [])], item.title, item.references);
    } else {
      assert data[0].title in t;
      AddRefsKeys(t, item.title, item.references);
    }
  }

  /** A table that is built describes its records. */
  lemma {:induction false} BuildDescribes(data: seq<Record>)
    requires Build(data).Some?
    ensures Describes(Build(data).value, data)
    decreases |data|
  {
    if data == [] {
      assert Known(data) == {};
    } else {
      var front := data[..|data| - 1];
      BuildDescribes(front);
      AddItemDescribes(Build(front).value, front, Last(data));
      assert front + [Last(data)] == data;
    }
  }

  /** The table is built exactly when no record's lookup fails. */
  lemma {:induction false} BuildSome(data: seq<Record>)
    ensures Build(data).Some? <==> Placed(data)
    decreases |data|
  {
    if data != [] {
      var front := data[..|data| - 1];
      BuildSome(front);
      PlacedSnoc(data);
      if Build(front).Some? {
        BuildDescribes(front);
        AddItemSome(Build(front).value, front, Last(data));
      }
    }
  }

  /** The lookups of a sequence of records succeed when those of its front do and the last one's does. */
  lemma PlacedSnoc(data: seq<Record>)
    requires |data| > 0
    ensures Placed(data) <==> Placed(data[..|data| - 1]) && (|data| > 1 ==> PlacedAt(data, |data| - 1))
  {
    var n := |data| - 1;
    var front := data[..n];
    forall i | 0 < i < n ensures PlacedAt(data, i) == PlacedAt(front, i) {
      assert data[..i] == front[..i];
    }
  }

  /**
   Every size in a built table is a positive multiple of the step; a title that
   occurs as a reference is at least two steps.
   */
  lemma SizeBounds(data: seq<Record>, k: Title)
    requires Build(data).Some?
    requires k in Build(data).value
    ensures Build(data).value[k].size % SIZE_STEP == 0
    ensures Build(data).value[k].size >= SIZE_STEP
    ensures k in AllRefs(data) ==> Build(data).value[k].size >= 2 * SIZE_STEP
  {
    BuildDescribes(data);
    DescribedSize(Build(data).value, data, k);
  }

  lemma DescribedSize(t: Table, data: seq<Record>, k: Title)
    requires Describes(t, data)
    requires k in t
    ensures t[k].size % SIZE_STEP == 0 && t[k].size >= SIZE_STEP
    ensures k in AllRefs(data) ==> t[k].size >= 2 * SIZE_STEP
  {
    var m := multiset(AllRefs(data))[k];
    assert t[k].size == SIZE_STEP * (1 + m);
  }

  /** One more record keeps every key and never shrinks a size. */
  lemma SizesGrowStep(front: seq<Record>, r: Record, k: Title)
    requires Build(front + [r]).Some?
    ensures Build(front).Some?
    ensures k in Build(front).value ==>
      k in Build(front + [r]).value && Build(front).value[k].size <= Build(front + [r]).value[k].size
  {
    var d := front + [r];
    assert d[..|d| - 1] == front;
    BuildDescribes(front);
    BuildDescribes(d);
    if k in Build(front).value {
      DescribedKey(Build(front).value, front, k);
      assert AllRefs(d) == AllRefs(front) + r.references;
      assert front != [] && d[0] == front[0];
      assert k in Known(d) && k in Build(d).value;
      DescribedKey(Build(d).value, d, k);
    }
  }

  /** Sizes only grow: the table of a prefix has no key the full table lacks, and no larger size. */
  lemma {:induction false} SizesGrow(data: seq<Record>, n: nat, k: Title)
    requires n <= |data|
    requires Build(data).Some?
    ensures Build(data[..n]).Some?
    ensures k in Build(data[..n]).value ==>
      k in Build(data).value && Build(data[..n]).value[k].size <= Build(data).value[k].size
    decreases |data|
  {
    if n < |data| {
      var front := data[..|data| - 1];
      assert front + [Last(data)] == data;
      SizesGrowStep(front, Last(data), k);
      SizesGrow(front, n, k);
      assert front[..n] == data[..n];
    } else {
      assert data[..n] == data;
    }
  }
}

=== FILE: text.dfy ===
/**
 The string operations the core relies on: Python's substring test
 (`sub in s`), `str.replace(' ', '_')`, and `str(n)` for a hop count,
 each paired with an independent description.
 */
module Text {

  /** `t` occurs in `s` starting at index `i`. */
  predicate OccursAt(s: string, t: string, i: nat) {
    i + |t| <= |s| && s[i..i + |t|] == t
  }

  /** Python's `t in s` for strings, by scanning the start positions from left to right. */
  predicate Contains(s: string, t: string)
    decreases |s|
  {
    if |s| < |t| then false
    else s[..|t|] == t || Contains(s[1..], t)
  }

  /** The scan finds `t` exactly when `t` occurs at some position of `s`. */
  lemma {:induction false} ContainsIffOccurs(s: string, t: string)
    ensures Contains(s, t) <==> exists i: nat :: OccursAt(s, t, i)
    decreases |s|
  {
    if |s| < |t| {
      forall i: nat ensures !OccursAt(s, t, i) { }
    } else if s[..|t|] == t {
      assert OccursAt(s, t, 0);
    } else {
      ContainsIffOccurs(s[1..], t);
      if Contains(s[1..], t) {
        var i: nat :| OccursAt(s[1..], t, i);
        assert s[i + 1..i + 1 + |t|] == s[1..][i..i + |t|];
        assert OccursAt(s, t, i + 1);
      } else {
        forall i: nat | OccursAt(s, t, i) ensures false {
          if i > 0 {
            assert s[1..][i - 1..i - 1 + |t|] == s[i..i + |t|];
            assert OccursAt(s[1..], t, i - 1);
          }
        }
      }
    }
  }

  /** A string whose first character does not occur in `s` does not occur in `s`. */
  lemma {:induction false} FirstCharAbsent(s: string, t: string)
    requires |t| > 0 && t[0] !in s
    ensures !Contains(s, t)
    decreases |s|
  {
    if |s| >= |t| {
      assert s[..|t|][0] == s[0];
      FirstCharAbsent(s[1..], t);
    }
  }

  /**
   Prefixing `s` with a string that lacks the first character of `t` neither
   creates nor hides an occurrence of `t`.
   */
  lemma PrefixKeepsContains(p: string, s: string, t: string)
    requires |t| > 0 && t[0] !in p
    ensures Contains(p + s, t) <==> Contains(s, t)
  {
    ContainsIffOccurs(p + s, t);
    ContainsIffOccurs(s, t);
    if Contains(p + s, t) {
      var i: nat :| OccursAt(p + s, t, i);
      assert (p + s)[i] == t[0];
      assert (p + s)[i..i + |t|] == s[i - |p|..i - |p| + |t|];
      assert OccursAt(s, t, i - |p|);
    }
    if Contains(s, t) {
      var i: nat :| OccursAt(s, t, i);
      assert (p + s)[|p| + i..|p| + i + |t|] == s[i..i + |t|];
      assert OccursAt(p + s, t, |p| + i);
    }
  }

  /** Python's `s.replace(a, b)` for single characters: every `a` becomes `b`. */
  function Replaced(s: string, a: char, b: char): (r: string)
    ensures |r| == |s|
    ensures a != b ==> a !in r
    decreases |s|
  {
    if s == [] then []
    else [if s[0] == a then b else s[0]] + Replaced(s[1..], a, b)
  }

  /** Character by character, the replacement changes each `a` into `b` and nothing else. */
  lemma {:induction false} ReplacedPointwise(s: string, a: char, b: char, i: nat)
    requires i < |s|
    ensures Replaced(s, a, b)[i] == if s[i] == a then b else s[i]
    decreases |s|
  {
    if i > 0 {
      ReplacedPointwise(s[1..], a, b, i - 1);
    }
  }

  /** Replacing back undoes a replacement whose target character did not occur before. */
  lemma {:induction false} ReplaceBack(s: string, a: char, b: char)
    requires b !in s
    ensures Replaced(Replaced(s, a, b), b, a) == s
    decreases |s|
  {
    if s != [] {
      assert b !in s[1..] by {
        forall k | 0 <= k < |s[1..]| ensures s[1..][k] != b {
          assert s[1..][k] == s[k + 1];
        }
      }
      ReplaceBack(s[1..], a, b);
      assert Replaced(s, a, b)[1..] == Replaced(s[1..], a, b);
    }
  }

  predicate IsDigit(c: char) {
    '0' <= c <= '9'
  }

  function DigitChar(d: nat): (c: char)
    requires d < 10
    ensures IsDigit(c)
  {
    ['0', '1', '2', '3', '4', '5', '6', '7', '8', '9'][d]
  }

  function DigitValue(c: char): (d: nat)
    requires IsDigit(c)
    ensures d < 10
  {
    (c as int - '0' as int) as nat
  }

  /** Python's `str(n)` for a non-negative `n`: decimal digits, most significant first. */
  function Decimal(n: nat): (r: string)
    ensures |r| > 0
    ensures forall k :: 0 <= k < |r| ==> IsDigit(r[k])
    ensures n > 0 ==> r[0] != '0'
    ensures n == 0 ==> r == "0"
  {
    if n < 10 then [DigitChar(n)] else Decimal(n / 10) + [DigitChar(n % 10)]
  }

  /** The value of a string of decimal digits. */
  function DecimalValue(s: string): nat
    requires forall k :: 0 <= k < |s| ==> IsDigit(s[k])
  {
    if s == [] then 0 else 10 * DecimalValue(s[..|s| - 1]) + DigitValue(s[|s| - 1])
  }

  /** Reading back the rendered hop count gives the hop count. */
  lemma {:induction false} DecimalRoundTrip(n: nat)
    ensures DecimalValue(Decimal(n)) == n
  {
    var r := Decimal(n);
    if n >= 10 {
      DecimalRoundTrip(n / 10);
      assert r[..|r| - 1] == Decimal(n / 10);
    }
  }
}

=== FILE: wiki_data.dfy ===
/**
 The data shared by the crawler, the query graph and the size table: article
 titles, the node records the crawler produces, and a few sequence helpers.
 */
module WikiData {

  /** An article title; two titles name the same node only when textually equal. */
  type Title = string

  /** One persisted node: an article and the articles it links to, in discovery order. */
  datatype Record = Record(title: Title, references: seq<Title>)

  /** Python's `Optional`: a value or `None`. */
  datatype Option<+T> = None | Some(value: T)

  /** A value, or the message of the error that would have been raised instead. */
  datatype Result<+T> = Success(value: T) | Failure(error: string)

  /** No element occurs twice. */
  predicate Distinct<T(==)>(s: seq<T>) {
    forall i, j :: 0 <= i < j < |s| ==> s[i] != s[j]
  }

  /** The elements of a sequence, as a set. */
  function Members<T>(s: seq<T>): set<T> {
    set x | x in s
  }

  lemma MembersSnoc<T>(s: seq<T>, x: T)
    ensures Members(s + [x]) == Members(s) + {x}
  {
    assert forall y :: y in s + [x] <==> y in s || y == x;
  }

  /** Removing the last element leaves the other members. */
  lemma MembersFront<T>(s: seq<T>)
    requires |s| > 0
    ensures Members(s) == Members(s[..|s| - 1]) + {s[|s| - 1]}
  {
    assert s == s[..|s| - 1] + [s[|s| - 1]];
    MembersSnoc(s[..|s| - 1], s[|s| - 1]);
  }

  /** A prefix has no member the whole sequence lacks. */
  lemma MembersPrefix<T>(s: seq<T>, k: nat)
    requires k <= |s|
    ensures Members(s[..k]) <= Members(s)
  {
    forall x | x in s[..k] ensures x in s {
      var i :| 0 <= i < k && s[..k][i] == x;
      assert s[i] == x;
    }
  }

  /** The last element, Python's `s[-1]`. */
  function Last<T>(s: seq<T>): T
    requires |s| > 0
  {
    s[|s| - 1]
  }

  /** Appending nothing changes nothing. */
  lemma ConcatNil<T>(a: seq<T>, b: seq<T>)
    requires b == []
    ensures a + b == a
  {
  }

  /** Prepending nothing changes nothing. */
  lemma NilConcat<T>(a: seq<T>, b: seq<T>)
    requires a == []
    ensures a + b == b
  {
  }

  /** A one-element sequence followed by the same element again. */
  lemma SingletonTwice<T>(a: seq<T>, x: T)
    requires a == [x]
    ensures a + [x] == [x, x]
  {
  }

  /** Appending a non-empty sequence is appending its front, then its last element. */
  lemma ConcatSnoc<T>(a: seq<T>, b: seq<T>)
    requires |b| > 0
    ensures a + b == a + b[..|b| - 1] + [b[|b| - 1]]
  {
    assert b == b[..|b| - 1] + [b[|b| - 1]];
  }

  /** A suffix is its first element followed by the rest. */
  lemma DropCons<T>(s: seq<T>, k: nat)
    requires k < |s|
    ensures s[k..] == [s[k]] + s[k + 1..]
  {
  }

  /** A prefix of a prefix is a prefix. */
  lemma TakeTake<T>(s: seq<T>, m: nat, n: nat)
    requires n <= m <= |s|
    ensures s[..m][..n] == s[..n]
  {
  }

  /** One more element of a prefix adds one member. */
  lemma MembersTake<T>(s: seq<T>, k: nat)
    requires k < |s|
    ensures Members(s[..k + 1]) == Members(s[..k]) + {s[k]}
  {
    assert s[..k + 1] == s[..k] + [s[k]];
    MembersSnoc(s[..k], s[k]);
  }

  /** A sequence without repetitions has as many elements as its element set. */
  lemma {:induction false} DistinctCardinality<T>(s: seq<T>)
    requires Distinct(s)
    ensures |Members(s)| == |s|
  {
    if s != [] {
      var tail := s[1..];
      assert Distinct(tail) by {
        forall i, j | 0 <= i < j < |tail| ensures tail[i] != tail[j] {
          assert tail[i] == s[i + 1] && tail[j] == s[j + 1];
        }
      }
      DistinctCardinality(tail);
      assert s[0] !in tail by {
        forall i | 0 <= i < |tail| ensures tail[i] != s[0] {
          assert tail[i] == s[i + 1];
        }
      }
      assert Members(s) == Members(tail) + {s[0]} by {
        forall x | x in s ensures x in tail || x == s[0] {
          var k :| 0 <= k < |s| && s[k] == x;
          if k > 0 {
            assert tail[k - 1] == x;
          }
        }
      }
    }
  }

  /** A sequence without repetitions drawn from a finite set is no longer than the set. */
  lemma DistinctWithin<T>(s: seq<T>, u: set<T>)
    requires Distinct(s)
    requires forall i :: 0 <= i < |s| ==> s[i] in u
    ensures |s| <= |u|
  {
    DistinctCardinality(s);
    SubsetCardinality(Members(s), u);
  }

  lemma {:induction false} SubsetCardinality<T>(a: set<T>, b: set<T>)
    requires a <= b
    ensures |a| <= |b|
    decreases a
  {
    if a != {} {
      var x :| x in a;
      SubsetCardinality(a - {x}, b - {x});
    }
  }
}
